=== FILE: README.md ===
# Sports-picks marketplace: money, access and account core

This project is a Dafny model of the server core of a subscription
marketplace for sports handicappers ("cappers"). Bettors subscribe to a
capper's plan through a payment processor. The checkout request asks the
processor to take an application fee for the platform and send the rest to
the capper's connected account. Paying subscribers read the capper's pick analyses;
everyone else sees them redacted. Admins set the fee rates and verify
cappers, and verified cappers pay the verified rate (1500 bps by default,
against 2500 bps for unverified cappers).

The model covers these parts of the system:

- the fee policy and fee arithmetic (`lib/stripe.ts`);
- the checkout route and its customer lookup;
- the processor webhook, as a reducer on the subscription table;
- the access gate of the public picks route;
- the admin fee-settings writer;
- the verification request and approval routes;
- self-registration;
- the capper routes that create plans and publish picks;
- the credential check and the JWT and session callbacks (`lib/auth.ts`);
- the leaderboard and finance helpers of `lib/mock-data.ts`.

Each route is a pure function. It takes the session principal (or none), a
request body and an immutable `Db` of tables. It returns a `Result` (the
JSON answer or an `ApiError` with its HTTP status) together with the new
`Db`. A rejected request provably returns the store unchanged.

Some values come from outside the model and are parameters instead:

- ids the store generates;
- the processor's new customer id;
- the clock;
- the password hash;
- the hash comparison;
- the e-mail syntax check.

Modules, one per file:

| module | file | models |
|---|---|---|
| `Common` | `common.dfy` | `Option`, `Result`, `ApiError` with status codes, roles, the session principal, JavaScript truthiness of strings, `Math.round` (`JsRound`) |
| `Store` | `store.dfy` | the tables: users, capper profiles, plans, subscriptions, settings row, verification requests, picks; e-mail uniqueness and profile lookup |
| `Fees` | `fees.dfy` | default rates, rate resolution, application fee |
| `Checkout` | `checkout.dfy` | `POST /api/checkout` and `getOrCreateCustomer` |
| `Webhook` | `webhook.dfy` | the webhook `switch` as `Apply`, delivery sequences as `ApplyAll` |
| `Sorting` | `sorting.dfy` | a stable descending sort by a key (insertion sort) |
| `Access` | `access.dfy` | `GET /api/picks` |
| `Settings` | `settings.dfy` | `POST /api/admin/settings` |
| `Verification` | `verification.dfy` | verify-request and verify-approve |
| `Register` | `register.dfy` | `POST /api/register` |
| `Content` | `content.dfy` | `POST /api/capper/plans` and `POST /api/capper/picks` |
| `Auth` | `auth.dfy` | `authorize`, `jwt` and `session` callbacks |
| `MockData` | `mockdata.dfy` | `computeLeaderboard`, `computeFinance` |

Three behaviours of the code that a reader might expect otherwise:

- An event that names another buyer or capper for an existing subscription
  is not rejected and not logged. The webhook keeps the old linkage
  silently and still updates `active` and `planId`. `Webhook.Apply` does
  the same (`Webhook.ImmutableLinkageExample`).
- The code never computes the capper's net amount. The checkout request
  asks the processor to take the application fee and transfer the rest to
  the capper's account; `Fees.SettlePrice` states that split.
- The fee rates are range-checked only when the settings are written, and
  checkout trusts the stored row. The range is therefore the invariant
  `Fees.SettingsInRange`, which `Settings.PostPreservesRange` maintains and
  `Checkout.CheckoutFeeWithinPrice` relies on.

## Model

| member | source | states |
|---|---|---|
| Common.JsRound | lib/stripe.ts:13 | `Math.round` gives the integer within half a unit of its argument, with halves rounded up |
| Fees.ResolveFeeBps | app/api/checkout/route.ts:41-44 | a verified capper pays the stored verified rate and an unverified one the stored unverified rate; when the row or that field is null the rate falls back to 1500 or 2500; a stored 0 is used as 0 |
| Fees.DefaultRates | lib/stripe.ts:7-10 | with no settings row, verified cappers pay 1500 bps and unverified cappers 2500 bps |
| Fees.ResolvedFeeInRange | app/api/checkout/route.ts:41-44 | when the stored rates lie in [0, 10000], the resolved rate does too, defaults included |
| Fees.ApplicationFeeIntegerForm | lib/stripe.ts:12-14 | the rounded fee equals the integer formula (amount*bps + 5000) div 10000 |
| Fees.ApplicationFeeBounds | lib/stripe.ts:12-14 | for a non-negative amount and a rate in [0, 10000], the fee lies between 0 and the amount |
| Fees.ApplicationFeeZeroRate | lib/stripe.ts:12-14 | a 0 bps rate takes no fee |
| Fees.ApplicationFeeFullRate | lib/stripe.ts:12-14 | a 10000 bps rate takes the whole amount |
| Fees.ApplicationFeeMonotoneInAmount | lib/stripe.ts:12-14 | at a fixed non-negative rate, a larger price never has a smaller fee |
| Fees.ApplicationFeeMonotoneInRate | lib/stripe.ts:12-14 | for a fixed non-negative price, a higher rate never takes a smaller fee |
| Fees.ApplicationFee | lib/stripe.ts:12-14 | the fee is `Math.round(amount*bps/10000)` on exact reals: the integer within half a unit of amount*bps/10000, halves up |
| Fees.SettlePrice | app/api/checkout/route.ts:78-83 | of the split the request asks for, the platform fee plus the capper's remainder add up to the price, and both lie in [0, price] |
| Fees.SettleHundredDollarsVerified | lib/stripe.ts:7-14 | a $100.00 plan at the verified default splits into $15.00 fee and $85.00 to the capper |
| Checkout.CorrelationMetadata | app/api/checkout/route.ts:69-75 | the metadata holds exactly the keys userId, capperId and planId, carrying the buyer, the plan's capper and the plan |
| Checkout.GetOrCreateCustomer | app/api/checkout/route.ts:94-114 | succeeds exactly when the user id is in the store (otherwise the error); a stored customer id is reused and nothing changes; otherwise the new id is stored on that user only |
| Checkout.GetOrCreateCustomerIdempotent | app/api/checkout/route.ts:98-100 | once a call has stored a customer, a second call returns the same one and changes nothing |
| Checkout.PlanOwner | app/api/checkout/route.ts:24-31 | the plan's owner exists exactly when the store has the plan's capper profile and that profile's user, and it is that user |
| Checkout.PayoutReady | app/api/checkout/route.ts:37-39 | the plan's capper profile and its user exist and the user has a non-empty payout account |
| Checkout.Post | app/api/checkout/route.ts:12-92 | the guards fire in order (401, 400, 404, payouts-not-configured 400) and leave the store unchanged; a request passing all of them, from a buyer the store has, succeeds; it charges the plan's price in "usd", interval and quantity 1, takes the fee at the capper's resolved rate, names the capper's payout account as the transfer destination, and carries the correlation metadata on both the subscription and the session; the new users table is exactly the customer lookup's, so a stored customer is reused with the store unchanged and otherwise only the buyer's customer id changes |
| Checkout.CheckoutFeeWithinPrice | app/api/checkout/route.ts:41-46 | with in-range stored rates and non-negative prices, the application fee of any checkout lies in [0, price] |
| Checkout.RepeatCheckoutReusesCustomer | app/api/checkout/route.ts:51 | a second checkout of the same plan by the same buyer gives the same request and store as the first |
| Webhook.Upsert | app/api/stripe/webhook/route.ts:33-46 | a new key creates a row with the given linkage; an existing row gets the new `active` and, only when one is given, a new planId; no other row changes |
| Webhook.Apply | app/api/stripe/webhook/route.ts:24-78 | an unknown event type, or a missing subscription id, userId or capperId, is a no-op; otherwise the named row exists afterwards with the event's `active` (checkout: true; subscription: status active or trialing); a new row takes the metadata's linkage and plan; an existing row keeps its buyer and capper |
| Webhook.Handle | app/api/stripe/webhook/route.ts:24-80 | every verified event is acknowledged; other event types leave the table alone; a delivery adds at most one row and removes none |
| Webhook.ApplyPreservesWellKeyed | app/api/stripe/webhook/route.ts:32-72 | each row stays keyed by its own processor id and keeps a non-empty buyer and capper |
| Webhook.ApplyIdempotent | app/api/stripe/webhook/route.ts:33-46 | a redelivered event leaves the table as one delivery did |
| Webhook.LastAppliedWins | app/api/stripe/webhook/route.ts:59-72 | of two events for one subscription, the one applied last sets `active` |
| Webhook.DistinctSubscriptionsCommute | app/api/stripe/webhook/route.ts:24-78 | events about different subscriptions can be applied in either order |
| Webhook.ApplyAllLastWins | app/api/stripe/webhook/route.ts:24-78 | after any delivery sequence, a subscription's `active` is the one asked for by the last event acting on it; a subscription no event acts on is untouched |
| Webhook.ApplyAllKeepsLinkage | app/api/stripe/webhook/route.ts:42-45 | no delivery sequence changes an existing row's buyer or capper |
| Webhook.ApplyAllPreservesWellKeyed | app/api/stripe/webhook/route.ts:33-34 | any delivery sequence keeps one well-formed row per processor id |
| Webhook.ApplyAllCreatesOnlyLinked | app/api/stripe/webhook/route.ts:32-59 | a new row appears only for an id that some linked event in the sequence named |
| Webhook.CheckoutMetadataRoundTrip | app/api/stripe/webhook/route.ts:25-46 | the checkout route's correlation metadata, delivered back with the completed session, creates an active row for that buyer, capper and plan |
| Webhook.DuplicateCreationExample | app/api/stripe/webhook/route.ts:50-73 | a creation event delivered twice leaves exactly one active row |
| Webhook.OutOfOrderExample | app/api/stripe/webhook/route.ts:56-71 | with an "active" and a "canceled" update, the one applied last decides; no timestamp is consulted |
| Webhook.ImmutableLinkageExample | app/api/stripe/webhook/route.ts:68-71 | an update naming another buyer leaves the row's buyer as it was |
| Webhook.MissingLinkageExample | app/api/stripe/webhook/route.ts:58 | an event without userId never creates a row |
| Sorting.SortDesc | lib/mock-data.ts:110 | the result is a permutation of the input, ordered by non-increasing key |
| Sorting.SortDescStable | lib/mock-data.ts:110 | entries with equal keys keep their input order |
| Access.Redact | app/api/picks/route.ts:22-25 | only the analysis is replaced, by the locked notice; restoring it gives back the pick |
| Access.RedactAll | app/api/picks/route.ts:39-42 | every pick of the list is redacted in place, and the length is kept |
| Access.PicksOfExactly | app/api/picks/route.ts:15-16 | the filter keeps exactly the picks of the requested capper, each as often as in the table |
| Access.Ordered | app/api/picks/route.ts:15-18 | a permutation of the capper's picks, newest first |
| Access.Unlocks | app/api/picks/route.ts:29-37 | access is granted exactly when some subscription row has this buyer, this capper and is active; otherwise every row of the pair is inactive |
| Access.Get | app/api/picks/route.ts:6-47 | a missing or empty capperId (and only that) is 400, and any other capperId is answered; the answer holds the capper's picks, newest first, all of them; an anonymous viewer, or one without an active subscription to this capper, sees every analysis locked; a subscriber sees them unchanged |
| Access.RedactedMatchesUnlocked | app/api/picks/route.ts:20-46 | an anonymous viewer, or a signed-in one without an active subscription, gets exactly a subscriber's list in the same order with every analysis replaced |
| Access.AnonymousAlwaysRedacted | app/api/picks/route.ts:20-26 | an anonymous viewer never sees an analysis |
| Access.CompletedCheckoutUnlocks | app/api/picks/route.ts:29-46 | after the webhook records a completed checkout for a buyer and capper, that buyer reads the capper's picks unredacted, whether the subscription id is new or a row for the same buyer and capper already exists (say an inactive one stored by an earlier `customer.subscription.created`) |
| Access.SubscriptionIsPerCapper | app/api/picks/route.ts:29-46 | in any store, a viewer whose active subscriptions cover one capper and not another reads the first capper's feed unredacted and gets every analysis of the second capper's feed locked |
| Access.PerCapperExample | app/api/picks/route.ts:29-46 | on one table with a subscription to capper p1 and one pick each by p1 and p2, the viewer gets p1's pick as stored and p2's pick redacted |
| Access.PicksOfAppend | app/api/picks/route.ts:15-16 | a pick appended to the table joins the end of its own capper's picks and leaves every other capper's picks as they were |
| Settings.PercentToBps | app/api/admin/settings/route.ts:29-30 | the stored rate is the nearest basis point to the percentage; a percentage in [0, 100] gives a rate in [0, 10000] |
| Settings.WholePercentToBps | app/api/admin/settings/route.ts:29-30 | a whole percentage k is stored as exactly 100*k bps |
| Settings.Post | app/api/admin/settings/route.ts:12-40 | a non-admin gets 401; a malformed body or a fee outside [0, 100] gets 400; both leave the row unchanged; an admin with two in-range fees always succeeds, and the row becomes both converted rates, whatever it held before, and stays in range |
| Settings.PostIdempotent | app/api/admin/settings/route.ts:26-37 | repeating a write gives the same answer and the same row |
| Settings.PostPreservesRange | app/api/admin/settings/route.ts:7-10 | in-range stored rates stay in range after any request |
| Settings.WrittenRatesReachCheckout | app/api/admin/settings/route.ts:28-31 | after a successful write, checkout charges exactly the written rates, not the defaults |
| Settings.ZeroFeeHonoured | app/api/admin/settings/route.ts:29-30 | a 0 percent fee is stored as 0 bps and checkout charges 0 bps |
| Verification.Request | app/api/capper/verify-request/route.ts:11-37 | 401 without a session and 403 for a non-capper; 400 for a malformed body or a message over 500 characters; a capper with a valid body always succeeds, and the caller's request is created or reset to PENDING with the new message, or null when none was sent, and no other request changes |
| Verification.Approve | app/api/admin/verify-approve/route.ts:11-34 | a non-admin gets 401, a malformed body 400, an unknown user 500, each leaving the store unchanged; an admin approving a stored user always succeeds: the user becomes verified and that user's request, if any, APPROVED, and nothing else changes |
| Verification.ApproveIdempotent | app/api/admin/verify-approve/route.ts:23-31 | approving twice leaves the store as approving once |
| Verification.RequestKeepsVerification | app/api/capper/verify-request/route.ts:27-34 | filing or refiling a request never touches the users, so verification already granted is kept |
| Verification.RequestThenApprove | app/api/admin/verify-approve/route.ts:23-31 | a filed request, once approved, is APPROVED with its message, and the capper is verified |
| Verification.ApprovalAppliesVerifiedRate | app/api/checkout/route.ts:42-44 | after approval, every plan of the capper is charged the verified rate |
| Register.ParseRole | app/api/register/route.ts:10 | only "BETTOR" and "CAPPER" are accepted, so ADMIN can never be chosen |
| Register.Post | app/api/register/route.ts:13-42 | an invalid form (and only that) is 400; a valid form with a used e-mail (and only that) is 409; both leave the store unchanged; a valid form with a fresh e-mail always succeeds: one user is created with the hashed password, unverified; a capper also gets one empty profile ("", no sports, record 0-0); nothing else changes |
| Register.PostPreservesConsistency | app/api/register/route.ts:23-39 | unique e-mails, one profile per user, and profiles owned by stored users are all kept |
| Register.ProfileIffCapper | app/api/register/route.ts:36 | a new account has a capper profile exactly when it signed up as a capper |
| Register.NoSelfServiceAdmin | app/api/register/route.ts:6-11 | a sign-up asking for ADMIN is rejected with 400 and creates nothing |
| Content.ParseInterval | app/api/capper/plans/route.ts:10 | exactly "day", "week" and "month" are accepted, each to its own interval |
| Content.CapperGate | app/api/capper/plans/route.ts:14-21 | a caller passes exactly when signed in as a capper; otherwise 401 without a session and 403 for other roles |
| Content.PostPlan | app/api/capper/plans/route.ts:13-44 | 401/403, then 400 for a bad form (name under 2 characters, a price that is not an integer of at least 100 cents, an unknown interval), then 404 without a profile, each leaving the store unchanged; a capper with a valid form and a profile always succeeds, and one plan of the caller's own profile with the form's values is added |
| Content.PostPlanGrowsByOne | app/api/capper/plans/route.ts:34-41 | the plan table grows by exactly one on success and not at all otherwise |
| Content.PostPick | app/api/capper/picks/route.ts:15-44 | the same gate and profile lookup; a form below the minimum lengths is 400; a capper with a valid form and a profile always succeeds, and exactly one pick of the caller's own profile, with the form's fields and the current time, is appended |
| Content.PublishedPickIsListed | app/api/capper/picks/route.ts:36-41 | a published pick appears in its capper's picks and in no other capper's |
| Auth.Authorize | lib/auth.ts:23-42 | a user is returned exactly when both credentials are non-empty, a user has that e-mail, has a password hash, and the password matches it; that user is the stored one with that e-mail |
| Auth.Jwt | lib/auth.ts:54-68 | a token with no subject, or one naming no stored user, is unchanged; otherwise it carries that user's stored role and verification flag; subject, name and e-mail are never changed |
| Auth.JwtIdempotent | lib/auth.ts:54-68 | refreshing a token twice is the same as once |
| Auth.SessionOf | lib/auth.ts:46-53 | a session without a user is unchanged; otherwise the user gets the token's subject as id, its role (BETTOR when it has none) and its verification flag, keeping name and e-mail |
| Auth.MissingRoleIsBettor | lib/auth.ts:49 | a token without a role never gives more than a BETTOR session |
| Auth.SessionReflectsStore | lib/auth.ts:46-68 | a session built after the jwt refresh shows the stored user's role and verification, whatever the token held before |
| Auth.RegisteredUserCanSignIn | lib/auth.ts:23-42 | right after a successful registration, the same e-mail and password authorize the new account |
| MockData.ComputeLeaderboard | lib/mock-data.ts:109-111 | the result is a permutation of the input, ordered by non-increasing ROI, with ties in input order; the input is a value and is not changed |
| MockData.LeaderHasTopRoi | lib/mock-data.ts:113-118 | the first entry has the highest ROI of the input |
| MockData.LeaderboardTieExample | lib/mock-data.ts:126-137 | ROIs 10, 10, 5 rank as 10, 10, 5 with the tied pair in input order |
| MockData.ShareRow | lib/mock-data.ts:153-159 | each share is the gross times its rate, rounded to the nearest dollar; id, name and gross are copied |
| MockData.ComputeFinance | lib/mock-data.ts:148-172 | one row per input row, in order, with its shares; each total equals the sum of its column |
| MockData.SharesNearGross | lib/mock-data.ts:157-158 | on a whole-dollar gross the two shares add up to the gross or to one more, never less |
| MockData.SharesCanExceedGross | lib/mock-data.ts:157-158 | $1 at a 50 percent cut is split $1 and $1, one more than the gross |

## Left out

- Signature verification of webhooks (`app/api/stripe/webhook/route.ts:7-22`) is left out: it is the processor library's cryptography. `Webhook.Handle` starts from a verified event.
- The processor calls (customer creation, checkout-session creation) are left out. The checkout route's result is the request it would send, and the new customer id is a parameter.
- The success and cancel URLs and the product display name (`app/api/checkout/route.ts:48-49, 63`) are not modelled. They are presentation strings built from environment variables; the name literal even holds a mis-encoded separator.
- Database, NextAuth and HTTP plumbing is left out. A body that fails the schema is `Body.Malformed` or a failed predicate, answered with 400; the flattened schema error text is not modelled.
- A request body that is not JSON at all is not modelled apart from a schema failure. In the source, `await request.json()` throws on it (for example `app/api/checkout/route.ts:18`, `app/api/admin/settings/route.ts:18`), which answers 500; the model folds that case into `Body.Malformed` and answers 400, with the store unchanged in both.
- Webhook.Handle: always acknowledges and `Webhook.Apply` writes whatever ids the metadata names. In the source the `upsert` (`app/api/stripe/webhook/route.ts:33-46, 59-72`) throws when the store refuses the write, for example on a userId, capperId or planId that names no row; the route then answers 500 without `{ received: true }` and the row is not written. Store failures are not modelled.
- The generated ids, the clock, bcrypt hashing and comparison, and the schema library's e-mail check are parameters.
- Concurrency is left out, for example two registrations racing on one e-mail, which the database's unique index settles.
- Numbers are exact reals and integers, not IEEE doubles. `Common.JsRound` is exact, so `Fees.ApplicationFeeIntegerForm` matches the source only while amount*bps stays below 2^53 and the division rounds exactly.
- String lengths in the schemas are counted in Dafny characters, not UTF-16 code units.
- Stored defaults come from the database schema, which is not part of this model. The model assumes a new user is unverified, a new verification request is PENDING, and the absent message of a new request is null.
- Checkout.Post: a plan whose capper profile is missing gives the payouts-not-configured error, where the source throws on `plan.capper.user` (500). The schema's foreign keys rule this case out. A missing user gives that error in both, since `plan.capper.user?.stripeAccountId` is then undefined (`app/api/checkout/route.ts:37`).
- Checkout.Post: the request carries the fee and the transfer destination under `payment_intent_data` (`app/api/checkout/route.ts:78-83`) of a `mode: "subscription"` session. Whether and how the processor applies these fields to the subscription's charges is its own behaviour and is not modelled; `Fees.SettlePrice` states only the split the request asks for.
- Checkout.Post: a session user missing from the users table gives `UserNotFound` (500), which stands for the exception thrown by `getOrCreateCustomer`.
- Verification.Request: a caller missing from the users table would make the store's foreign key fail. The model writes the request anyway.
- Access.Get: picks with equal `createdAt` are kept in table order. The database leaves their order unspecified, so the source promises nothing there.
- Auth.SessionOf: the source asserts `token.sub!` non-null. The model keeps it as an `Option` and copies `None` through.
- `formatUSD`, `lib/format.ts`, the static mock tables and the self-test of the leaderboard on the static table are not part of this model; the tie self-test is modelled as `MockData.LeaderboardTieExample`.
- MockData.ComputeLeaderboard: the comparator `b.roi - a.roi` is modelled on real ROIs; NaN ROIs are not modelled.
- The UI components, pages and dashboards are not part of this model.

=== FILE: access.dfy ===
/**
  The public picks route: one capper's picks, newest first, with the
  analysis hidden unless the viewer holds an active subscription to that
  capper.
 */
module Access {
  import opened Common
  import opened Store
  import opened Sorting
  import Webhook

  const LockedAnalysis: string := "Subscribe to unlock full analysis"

  function Redact(p: Pick): (q: Pick)
    ensures q.analysis == LockedAnalysis
    ensures q.(analysis := p.analysis) == p
  {
    p.(analysis := LockedAnalysis)
  }

  /** `picks.map(pick => ({ ...pick, analysis: LOCKED }))`. */
  function RedactAll(ps: seq<Pick>): (r: seq<Pick>)
    ensures |r| == |ps|
    ensures forall i :: 0 <= i < |ps| ==> r[i] == Redact(ps[i])
  {
    MapAll(ps, Redact)
  }

  function CreatedAt(p: Pick): real {
    p.createdAt as real
  }

  /** `pick.findMany({ where: { capperId } })`, in table order. */
  function PicksOf(picks: seq<Pick>, capperId: string): seq<Pick>
  {
    if picks == [] then []
    else (if picks[0].capperId == capperId then [picks[0]] else []) + PicksOf(picks[1..], capperId)
  }

  /** The filter keeps exactly the requested capper's picks, each as often as in the table. */
  lemma {:induction false} PicksOfExactly(picks: seq<Pick>, capperId: string)
    ensures forall p :: multiset(PicksOf(picks, capperId))[p] == if p.capperId == capperId then multiset(picks)[p] else 0
  {
    if picks != [] {
      assert picks == [picks[0]] + picks[1..];
      PicksOfExactly(picks[1..], capperId);
    }
  }

  /** `orderBy: { createdAt: "desc" }` applied to one capper's picks. */
  function Ordered(picks: seq<Pick>, capperId: string): (r: seq<Pick>)
    ensures |r| == |PicksOf(picks, capperId)|
    ensures multiset(r) == multiset(PicksOf(picks, capperId))
    ensures SortedDesc(r, CreatedAt)
    ensures forall i :: 0 <= i < |r| ==> r[i].capperId == capperId
    ensures multiset(RedactAll(r)) == multiset(RedactAll(PicksOf(picks, capperId)))
  {
    var found := PicksOf(picks, capperId);
    PicksOfExactly(picks, capperId);
    var r := SortDesc(found, CreatedAt);
    assert forall i :: 0 <= i < |r| ==> r[i].capperId == capperId by {
      forall i | 0 <= i < |r|
        ensures r[i].capperId == capperId
      {
        assert r[i] in multiset(found);
      }
    }
    SortDescMapAll(found, CreatedAt, Redact);
    r
  }

  /** The keys of the rows `where: { userId, capperId, active: true }` selects. */
  function Matching(subs: map<string, Subscription>, userId: string, capperId: string): set<string> {
    set k | k in subs && subs[k].userId == userId && subs[k].capperId == capperId && subs[k].active
  }

  /**
    `subscription.findFirst(...)` finds a row: some row of this buyer for
    this capper is active; when none is found, every row of the pair is
    inactive, and rows of other buyers or cappers never matter.
   */
  predicate Unlocks(subs: map<string, Subscription>, userId: string, capperId: string): (found: bool)
    ensures found ==> exists k :: k in subs && subs[k].userId == userId && subs[k].capperId == capperId && subs[k].active
    ensures !found <==>
      forall k :: k in subs && subs[k].userId == userId && subs[k].capperId == capperId ==> !subs[k].active
  {
    var rows := Matching(subs, userId, capperId);
    assert forall k :: k in subs && subs[k].userId == userId && subs[k].capperId == capperId && subs[k].active ==>
      k in rows;
    assert rows != {} ==> exists k :: k in rows by {
      if rows != {} { var k :| k in rows; }
    }
    rows != {}
  }

  /**
    The GET handler. A missing (or empty) `capperId` is a 400. Otherwise
    the capper's picks, newest first; a viewer who is anonymous, or has no
    active subscription to this capper, gets every analysis replaced.
   */
  function Get(session: Option<Principal>, capperId: Option<string>, db: Db): (r: Result<seq<Pick>>)
    ensures !Truthy(capperId) <==> r == Err(MissingCapperId)
    ensures r.Ok? <==> Truthy(capperId)
    ensures r.Ok? ==>
      var c := capperId.value;
      var unlocked := session.Some? && Unlocks(db.subscriptions, session.value.id, c);
      && |r.value| == |PicksOf(db.picks, c)|
      && SortedDesc(r.value, CreatedAt)
      && (forall i :: 0 <= i < |r.value| ==> r.value[i].capperId == c)
      && (unlocked ==> multiset(r.value) == multiset(PicksOf(db.picks, c)))
      && (!unlocked ==> multiset(r.value) == multiset(RedactAll(PicksOf(db.picks, c))))
      && (!unlocked ==> forall i :: 0 <= i < |r.value| ==> r.value[i].analysis == LockedAnalysis)
  {
    if !Truthy(capperId) then Err(MissingCapperId)
    else
      var c := capperId.value;
      var picks := Ordered(db.picks, c);
      if session.None? then Ok(RedactAll(picks))
      else if !Unlocks(db.subscriptions, session.value.id, c) then Ok(RedactAll(picks))
      else Ok(picks)
  }

  /**
    A viewer without access gets exactly the list a subscriber gets, in
    the same order, with every analysis replaced; this covers anonymous
    viewers and signed-in viewers without an active subscription.
   */
  lemma RedactedMatchesUnlocked(db: Db, locked: Option<Principal>, subscriber: Principal, capperId: string)
    requires capperId != ""
    requires Unlocks(db.subscriptions, subscriber.id, capperId)
    requires locked.None? || !Unlocks(db.subscriptions, locked.value.id, capperId)
    ensures Get(locked, Some(capperId), db) == Ok(RedactAll(Get(Some(subscriber), Some(capperId), db).value))
  {
  }

  /** An anonymous viewer never sees an analysis, whatever the table holds. */
  lemma AnonymousAlwaysRedacted(db: Db, capperId: string)
    requires capperId != ""
    ensures forall p :: p in Get(None, Some(capperId), db).value ==> p.analysis == LockedAnalysis
  {
  }

  /**
    A completed checkout unlocks the capper it was for: after the webhook
    applies the session with the buyer's metadata, the buyer reads the
    capper's picks unredacted. The subscription id may be new, or may
    already hold a row of this buyer and capper (events arrive in any
    order, so `customer.subscription.created` may have stored it inactive).
   */
  lemma CompletedCheckoutUnlocks(db: Db, viewer: Principal, subId: string, capperId: string, planId: string)
    requires subId != "" && viewer.id != "" && capperId != ""
    requires subId in db.subscriptions ==>
               db.subscriptions[subId].userId == viewer.id && db.subscriptions[subId].capperId == capperId
    ensures var e := Webhook.CheckoutCompleted(Some(subId), map["userId" := viewer.id, "capperId" := capperId, "planId" := planId]);
            var db' := db.(subscriptions := Webhook.Apply(db.subscriptions, e));
            Get(Some(viewer), Some(capperId), db') == Ok(Ordered(db.picks, capperId))
  {
    var e := Webhook.CheckoutCompleted(Some(subId), map["userId" := viewer.id, "capperId" := capperId, "planId" := planId]);
    var subs' := Webhook.Apply(db.subscriptions, e);
    assert e.Linked();
    assert subs'[subId].userId == viewer.id && subs'[subId].capperId == capperId && subs'[subId].active;
    assert Unlocks(subs', viewer.id, capperId);
  }

  /** Two picks by two cappers: each capper's feed is its one pick. */
  lemma OnePickEach(pk1: Pick, pk2: Pick)
    requires pk1.capperId == "p1" && pk2.capperId == "p2"
    ensures Ordered([pk1, pk2], "p1") == [pk1]
    ensures Ordered([pk1, pk2], "p2") == [pk2]
  {
    assert [pk1, pk2][1..] == [pk2];
    assert [pk2][1..] == [];
    assert PicksOf([pk2], "p1") == [];
    assert PicksOf([pk1, pk2], "p1") == [pk1];
    assert PicksOf([pk2], "p2") == [pk2];
    assert PicksOf([pk1, pk2], "p2") == [pk2];
    assert [pk1][1..] == [];
    assert SortDesc([pk1], CreatedAt) == [pk1];
    assert SortDesc([pk2], CreatedAt) == [pk2];
  }

  /**
    Access is per capper: a viewer whose active subscriptions cover capper
    `c1` but not `c2` reads `c1`'s feed unredacted, and every analysis in
    `c2`'s feed is locked.
   */
  lemma SubscriptionIsPerCapper(db: Db, viewer: Principal, c1: string, c2: string)
    requires c1 != "" && c2 != ""
    requires Unlocks(db.subscriptions, viewer.id, c1) && !Unlocks(db.subscriptions, viewer.id, c2)
    ensures Get(Some(viewer), Some(c1), db) == Ok(Ordered(db.picks, c1))
    ensures Get(Some(viewer), Some(c2), db) == Ok(RedactAll(Ordered(db.picks, c2)))
    ensures forall p :: p in Get(Some(viewer), Some(c2), db).value ==> p.analysis == LockedAnalysis
  {
  }

  /** On a concrete table: one subscription to p1, one pick each by p1 and p2. */
  lemma PerCapperExample(pk1: Pick, pk2: Pick)
    requires pk1.capperId == "p1" && pk2.capperId == "p2"
    ensures var viewer := Principal("u1", None, Bettor, false);
            var subs := map["sub_1" := Subscription("sub_1", "u1", "p1", None, true)];
            var db := Db(map[], map[], map[], subs, None, map[], [pk1, pk2]);
            && Get(Some(viewer), Some("p1"), db) == Ok([pk1])
            && Get(Some(viewer), Some("p2"), db) == Ok([Redact(pk2)])
  {
    var subs := map["sub_1" := Subscription("sub_1", "u1", "p1", None, true)];
    OnePickEach(pk1, pk2);
    assert Unlocks(subs, "u1", "p1") by {
      assert subs["sub_1"].userId == "u1";
    }
    assert !Unlocks(subs, "u1", "p2");
    assert RedactAll([pk2]) == [Redact(pk2)];
  }

  /** A pick appended to the table joins the end of its capper's picks only. */
  lemma {:induction false} PicksOfAppend(picks: seq<Pick>, p: Pick, capperId: string)
    ensures PicksOf(picks + [p], capperId) == PicksOf(picks, capperId) + (if p.capperId == capperId then [p] else [])
  {
    var tail := if p.capperId == capperId then [p] else [];
    if picks == [] {
      assert picks + [p] == [p];
      assert [p][1..] == [];
      assert PicksOf([p], capperId) == tail + PicksOf([], capperId);
    } else {
      var all := picks + [p];
      var head := if picks[0].capperId == capperId then [picks[0]] else [];
      assert all[0] == picks[0];
      assert all[1..] == picks[1..] + [p];
      PicksOfAppend(picks[1..], p, capperId);
      assert PicksOf(all, capperId) == head + PicksOf(all[1..], capperId);
      assert PicksOf(picks, capperId) == head + PicksOf(picks[1..], capperId);
      assert PicksOf(all[1..], capperId) == PicksOf(picks[1..], capperId) + tail;
    }
  }
}

=== FILE: auth.dfy ===
/**
  Sign-in: the credentials check, and the two callbacks that carry the
  stored role and verification flag into the token and the session.
  Password comparison is the hashing library's; it is a parameter here.
 */
module Auth {
  import opened Common
  import opened Store
  import Register

  datatype Credentials = Credentials(email: Option<string>, password: Option<string>)

  /**
    `authorize`: null unless both fields are non-empty, a user has that
    e-mail, the user has a (non-empty) password hash, and `compare` accepts
    the password against it; otherwise the user found by e-mail.
   */
  function Authorize(credentials: Option<Credentials>, users: map<string, User>, compare: (string, string) -> bool)
    : (r: Option<User>)
    requires UsersWellFormed(users)
    ensures r.Some? <==>
      && credentials.Some?
      && Truthy(credentials.value.email) && Truthy(credentials.value.password)
      && EmailRegistered(users, credentials.value.email.value)
      && var u := UserByEmail(users, credentials.value.email.value).value;
         Truthy(u.hashedPassword) && compare(credentials.value.password.value, u.hashedPassword.value)
    ensures r.Some? ==>
      && r.value.id in users && users[r.value.id] == r.value
      && r.value.email == credentials.value.email.value
  {
    if credentials.None? || !Truthy(credentials.value.email) || !Truthy(credentials.value.password) then None
    else
      match UserByEmail(users, credentials.value.email.value)
      case None => None
      case Some(user) =>
        if !Truthy(user.hashedPassword) then None
        else if !compare(credentials.value.password.value, user.hashedPassword.value) then None
        else Some(user)
  }

  /** The JWT's claims the callbacks read and write. */
  datatype Token = Token(sub: Option<string>, name: Option<string>, email: Option<string>,
                         role: Option<Role>, isVerified: Option<bool>)

  /**
    The `jwt` callback: with no (or an empty) subject, or no stored user
    with that id, the token is returned as it is; otherwise its role and
    verification flag are refreshed from the store.
   */
  function Jwt(token: Token, users: map<string, User>): (t: Token)
    ensures !Truthy(token.sub) || token.sub.value !in users ==> t == token
    ensures Truthy(token.sub) && token.sub.value in users ==>
      && t.role == Some(users[token.sub.value].role)
      && t.isVerified == Some(users[token.sub.value].isVerified)
    ensures t.sub == token.sub && t.name == token.name && t.email == token.email
  {
    if !Truthy(token.sub) then token
    else if token.sub.value !in users then token
    else
      var user := users[token.sub.value];
      token.(role := Some(user.role), isVerified := Some(user.isVerified))
  }

  lemma JwtIdempotent(token: Token, users: map<string, User>)
    ensures Jwt(Jwt(token, users), users) == Jwt(token, users)
  {
  }

  datatype SessionUser = SessionUser(name: Option<string>, email: Option<string>,
                                     id: Option<string>, role: Role, isVerified: Option<bool>)

  datatype Session = Session(user: Option<SessionUser>, expires: string)

  /**
    The `session` callback: a session with a user gets the token's subject
    as id, its role or BETTOR when it has none, and its verification flag.
   */
  function SessionOf(session: Session, token: Token): (s: Session)
    ensures s.expires == session.expires
    ensures session.user.None? ==> s == session
    ensures session.user.Some? ==>
      && s.user.Some?
      && s.user.value.id == token.sub
      && s.user.value.role == token.role.GetOr(Bettor)
      && s.user.value.isVerified == token.isVerified
      && s.user.value.name == session.user.value.name
      && s.user.value.email == session.user.value.email
  {
    if session.user.None? then session
    else
      session.(user := Some(session.user.value.(id := token.sub, role := token.role.GetOr(Bettor),
                                                isVerified := token.isVerified)))
  }

  /** A token without a role claim yields a BETTOR session, never an admin. */
  lemma MissingRoleIsBettor(session: Session, token: Token)
    requires session.user.Some? && token.role.None?
    ensures SessionOf(session, token).user.value.role == Bettor
  {
  }

  /**
    Whatever the token claimed before, a session built after the jwt
    callback shows the stored user's role and verification flag.
   */
  lemma SessionReflectsStore(session: Session, token: Token, users: map<string, User>)
    requires session.user.Some? && Truthy(token.sub) && token.sub.value in users
    ensures SessionOf(session, Jwt(token, users)).user.value.id == token.sub
    ensures var s := SessionOf(session, Jwt(token, users)).user.value;
            var u := users[token.sub.value];
            s.role == u.role && s.isVerified == Some(u.isVerified)
  {
  }

  /**
    Registration and sign-in agree: right after signing up, the e-mail and
    password authorize the new account, given that the hashing library's
    `compare` accepts a password against its own hash.
   */
  lemma RegisteredUserCanSignIn(form: Register.RegisterBody, db: Db, isEmail: string -> bool, hashed: string,
                                newUserId: string, newCapperId: string, compare: (string, string) -> bool)
    requires newUserId !in db.users && newCapperId !in db.cappers
    requires Register.Consistent(db)
    requires hashed != "" && compare(form.password, hashed) && form.email != ""
    requires Register.Post(Typed(form), db, isEmail, hashed, newUserId, newCapperId).0.Ok?
    ensures var db' := Register.Post(Typed(form), db, isEmail, hashed, newUserId, newCapperId).1;
            UsersWellFormed(db'.users) &&
            Authorize(Some(Credentials(Some(form.email), Some(form.password))), db'.users, compare) == Some(db'.users[newUserId])
  {
    var db' := Register.Post(Typed(form), db, isEmail, hashed, newUserId, newCapperId).1;
    Register.PostPreservesConsistency(Typed(form), db, isEmail, hashed, newUserId, newCapperId);
    assert db'.users[newUserId].email == form.email;
    assert |form.password| >= 6;
    assert EmailRegistered(db'.users, form.email);
    assert UserByEmail(db'.users, form.email) == Some(db'.users[newUserId]);
  }
}

=== FILE: checkout.dfy ===
/**
  The checkout route: resolves the plan and its capper, picks the fee rate,
  makes sure the buyer has a processor customer, and assembles the checkout
  request handed to the processor. The processor call itself is not made
  here: its argument is the route's result.
 */
module Checkout {
  import opened Common
  import opened Store
  import opened Fees

  /** Processor metadata: a string-to-string dictionary. */
  type Metadata = map<string, string>

  /** The correlation keys that tie a processor subscription to local rows. */
  function CorrelationMetadata(userId: string, capperId: string, planId: string): (m: Metadata)
    ensures m.Keys == {"userId", "capperId", "planId"}
    ensures m["userId"] == userId && m["capperId"] == capperId && m["planId"] == planId
  {
    map["userId" := userId, "capperId" := capperId, "planId" := planId]
  }

  /** The arguments of the processor's checkout-session creation. */
  datatype CheckoutRequest = CheckoutRequest(
    customer: string,
    currency: string,
    unitAmount: int,
    interval: Interval,
    quantity: int,
    applicationFeeAmount: int,
    destination: string,
    subscriptionMetadata: Metadata,
    sessionMetadata: Metadata
  )

  /**
    `getOrCreateCustomer`: reuses the user's processor customer when one is
    stored, and otherwise stores `newCustomerId` (the id the processor gives
    the customer it creates) on the user. A user id unknown to the store is
    an error.
   */
  function GetOrCreateCustomer(users: map<string, User>, userId: string, newCustomerId: string)
    : (r: Result<(string, map<string, User>)>)
    ensures userId !in users <==> r == Err(UserNotFound)
    ensures r.Ok? <==> userId in users
    ensures r.Ok? ==>
      var (customer, users') := r.value;
      && users'.Keys == users.Keys
      && users'[userId] == users[userId].(stripeCustomerId := Some(customer))
      && (forall id :: id in users && id != userId ==> users'[id] == users[id])
    ensures r.Ok? && Truthy(users[userId].stripeCustomerId) ==>
      r.value == (users[userId].stripeCustomerId.value, users)
    ensures r.Ok? && !Truthy(users[userId].stripeCustomerId) ==> r.value.0 == newCustomerId
  {
    if userId !in users then Err(UserNotFound)
    else
      var user := users[userId];
      if Truthy(user.stripeCustomerId) then Ok((user.stripeCustomerId.value, users))
      else Ok((newCustomerId, users[userId := user.(stripeCustomerId := Some(newCustomerId))]))
  }

  /** Once a customer exists, a second call returns it and changes nothing. */
  lemma GetOrCreateCustomerIdempotent(users: map<string, User>, userId: string, id1: string, id2: string)
    requires id1 != ""
    requires GetOrCreateCustomer(users, userId, id1).Ok?
    ensures var (c1, users1) := GetOrCreateCustomer(users, userId, id1).value;
            GetOrCreateCustomer(users1, userId, id2) == Ok((c1, users1))
  {
  }

  /** The user behind a plan's capper profile, if the store has both. */
  function PlanOwner(db: Db, plan: Plan): (u: Option<User>)
    ensures u.Some? <==> plan.capperId in db.cappers && db.cappers[plan.capperId].userId in db.users
    ensures u.Some? ==> u.value == db.users[db.cappers[plan.capperId].userId]
  {
    if plan.capperId in db.cappers && db.cappers[plan.capperId].userId in db.users then
      Some(db.users[db.cappers[plan.capperId].userId])
    else None
  }

  /** The payout check: the plan's capper has a (non-empty) payout account. */
  predicate PayoutReady(db: Db, plan: Plan): (ready: bool)
    ensures ready <==>
      && plan.capperId in db.cappers
      && db.cappers[plan.capperId].userId in db.users
      && db.users[db.cappers[plan.capperId].userId].stripeAccountId.Some?
      && db.users[db.cappers[plan.capperId].userId].stripeAccountId.value != ""
  {
    var owner := PlanOwner(db, plan);
    owner.Some? && Truthy(owner.value.stripeAccountId)
  }

  /**
    The POST handler. Checks, in order: a session user (401), a well-typed
    body (400), a known plan (404), a capper with a payout account (400).
    Only then is a customer looked up or created and the request built.
   */
  function Post(session: Option<Principal>, body: Body<string>, db: Db, newCustomerId: string)
    : (r: (Result<CheckoutRequest>, Db))
    ensures session.None? ==> r == (Err(Unauthorized), db)
    ensures session.Some? && body.Malformed? ==> r == (Err(InvalidBody), db)
    ensures session.Some? && body.Typed? && body.fields !in db.plans ==> r == (Err(NotFound), db)
    ensures session.Some? && body.Typed? && body.fields in db.plans && !PayoutReady(db, db.plans[body.fields]) ==>
              r == (Err(PayoutNotConfigured), db)
    ensures r.0.Err? && r.0.error != UserNotFound ==> r.1 == db
    ensures r.0.Err? && r.0.error == UserNotFound ==> r.1 == db && session.value.id !in db.users
    ensures r.0.Ok? <==>
      && session.Some? && body.Typed? && body.fields in db.plans && PayoutReady(db, db.plans[body.fields])
      && session.value.id in db.users
    ensures r.0.Ok? ==>
      GetOrCreateCustomer(db.users, session.value.id, newCustomerId) == Ok((r.0.value.customer, r.1.users))
    ensures r.0.Ok? && Truthy(db.users[session.value.id].stripeCustomerId) ==>
      r.0.value.customer == db.users[session.value.id].stripeCustomerId.value && r.1 == db
    ensures r.0.Ok? ==>
      var req := r.0.value;
      var plan := db.plans[body.fields];
      var owner := PlanOwner(db, plan).value;
      && session.Some? && body.Typed? && body.fields in db.plans && PayoutReady(db, plan)
      && req.currency == "usd"
      && req.unitAmount == plan.price
      && req.interval == plan.interval
      && req.quantity == 1
      && req.destination == owner.stripeAccountId.value
      && req.applicationFeeAmount == ApplicationFee(plan.price, ResolveFeeBps(owner.isVerified, db.settings))
      && req.subscriptionMetadata == CorrelationMetadata(session.value.id, plan.capperId, plan.id)
      && req.sessionMetadata == req.subscriptionMetadata
      && session.value.id in db.users
      && r.1 == db.(users := r.1.users)
      && r.1.users.Keys == db.users.Keys
      && r.1.users[session.value.id].stripeCustomerId == Some(req.customer)
  {
    if session.None? then (Err(Unauthorized), db)
    else if body.Malformed? then (Err(InvalidBody), db)
    else if body.fields !in db.plans then (Err(NotFound), db)
    else
      var plan := db.plans[body.fields];
      if !PayoutReady(db, plan) then (Err(PayoutNotConfigured), db)
      else
        var owner := PlanOwner(db, plan).value;
        var feeBps := ResolveFeeBps(owner.isVerified, db.settings);
        var applicationFee := ApplicationFee(plan.price, feeBps);
        match GetOrCreateCustomer(db.users, session.value.id, newCustomerId)
        case Err(e) => (Err(e), db)
        case Ok((customer, users')) =>
          var metadata := CorrelationMetadata(session.value.id, plan.capperId, plan.id);
          var req := CheckoutRequest(
            customer, "usd", plan.price, plan.interval, 1,
            applicationFee, owner.stripeAccountId.value, metadata, metadata);
          (Ok(req), db.(users := users'))
  }

  /**
    The money bound at checkout: when the stored rates are whole rates (as
    the settings route guarantees), the application fee of any plan lies
    between 0 and its price, so the capper's remainder is never negative.
   */
  lemma CheckoutFeeWithinPrice(session: Option<Principal>, body: Body<string>, db: Db, newCustomerId: string)
    requires SettingsInRange(db.settings)
    requires forall id :: id in db.plans ==> db.plans[id].price >= 0
    requires Post(session, body, db, newCustomerId).0.Ok?
    ensures var req := Post(session, body, db, newCustomerId).0.value;
            0 <= req.applicationFeeAmount <= req.unitAmount
  {
    var plan := db.plans[body.fields];
    var owner := PlanOwner(db, plan).value;
    ResolvedFeeInRange(owner.isVerified, db.settings);
    ApplicationFeeBounds(plan.price, ResolveFeeBps(owner.isVerified, db.settings));
  }

  /** A second checkout by the same buyer reuses the customer the first one stored. */
  lemma RepeatCheckoutReusesCustomer(session: Option<Principal>, body: Body<string>, db: Db, id1: string, id2: string)
    requires id1 != ""
    requires Post(session, body, db, id1).0.Ok?
    ensures var (r1, db1) := Post(session, body, db, id1);
            Post(session, body, db1, id2) == (r1, db1)
  {
    var (r1, db1) := Post(session, body, db, id1);
    var plan := db.plans[body.fields];
    assert db1.plans == db.plans && db1.cappers == db.cappers && db1.settings == db.settings;
    assert PlanOwner(db1, plan) == Some(db1.users[db.cappers[plan.capperId].userId]);
    var ownerId := db.cappers[plan.capperId].userId;
    assert db1.users[ownerId].isVerified == db.users[ownerId].isVerified;
    assert db1.users[ownerId].stripeAccountId == db.users[ownerId].stripeAccountId;
  }
}

=== FILE: common.dfy ===
/**
  Vocabulary shared by every route of the marketplace: optional values, the
  typed error outcomes a route handler answers with, the three user roles,
  the authenticated principal a session carries, and the rounding rule of
  JavaScript's `Math.round`.
 */
module Common {

  /** A value that may be absent (JavaScript `null`/`undefined`). */
  datatype Option<+T> = None | Some(value: T) {
    function GetOr(default: T): T {
      match this
      case Some(v) => v
      case None => default
    }
  }

  /** The error responses the route handlers return, one per HTTP failure. */
  datatype ApiError =
    | Unauthorized          // no session, or wrong role where the route answers 401
    | Forbidden             // signed in, but not a capper
    | InvalidBody           // the request body failed its schema
    | MissingCapperId       // GET /api/picks without a capperId
    | NotFound              // unknown plan, or caller has no capper profile
    | PayoutNotConfigured   // the plan's capper has no payout account
    | EmailTaken            // registration with an e-mail already in use
    | UserNotFound          // a store update or lookup by id found nothing
  {
    /** The HTTP status code of the response. */
    function Status(): (code: nat)
      ensures 400 <= code < 600
    {
      match this
      case Unauthorized => 401
      case Forbidden => 403
      case InvalidBody => 400
      case MissingCapperId => 400
      case NotFound => 404
      case PayoutNotConfigured => 400
      case EmailTaken => 409
      case UserNotFound => 500
    }
  }

  /** The outcome of a route: a success value or a typed error. */
  datatype Result<+T> = Ok(value: T) | Err(error: ApiError)

  /** A request body: either one that the route's schema could type-check
      field by field, or one whose shape is wrong (missing field, wrong
      JSON type). Range and length constraints are checked by the routes. */
  datatype Body<+T> = Malformed | Typed(fields: T)

  datatype Role = Bettor | Capper | Admin

  /** The user of a signed-in session, as the session callback fills it. */
  datatype Principal = Principal(id: string, email: Option<string>, role: Role, isVerified: bool)

  /** A JavaScript string is truthy exactly when it is present and non-empty. */
  predicate Truthy(s: Option<string>) {
    s.Some? && s.value != ""
  }

  /** `Math.round`: the nearest integer, halves rounded towards +infinity. */
  function JsRound(x: real): (n: int)
    ensures n as real - 0.5 <= x < n as real + 0.5
  {
    (x + 0.5).Floor
  }

  /** `Math.round` is the only integer within half a unit below/above x. */
  lemma JsRoundUnique(x: real, n: int)
    requires n as real - 0.5 <= x < n as real + 0.5
    ensures JsRound(x) == n
  {
  }

  lemma JsRoundOfInt(k: int)
    ensures JsRound(k as real) == k
  {
    JsRoundUnique(k as real, k);
  }
}

=== FILE: content.dfy ===
/**
  The two capper-only write routes: creating a subscription plan and
  publishing a pick. Both check the session, then the role, then the body,
  then look up the caller's capper profile, and end in one insert.
 */
module Content {
  import opened Common
  import opened Store
  import Access

  /** The plan form; `price` is a JSON number, `interval` the raw string. */
  datatype PlanBody = PlanBody(name: string, price: real, interval: string)

  const MinPlanPrice: int := 100

  /** `z.enum(["day", "week", "month"])`. */
  function ParseInterval(s: string): (r: Option<Interval>)
    ensures r == Some(Day) <==> s == "day"
    ensures r == Some(Week) <==> s == "week"
    ensures r == Some(Month) <==> s == "month"
  {
    if s == "day" then Some(Day)
    else if s == "week" then Some(Week)
    else if s == "month" then Some(Month)
    else None
  }

  predicate IsInteger(x: real) {
    x.Floor as real == x
  }

  /** The plan schema: name of 2+ characters, an integer price of at least
      100 cents, and a known billing interval. */
  predicate ValidPlan(b: PlanBody) {
    |b.name| >= 2 && IsInteger(b.price) && b.price >= MinPlanPrice as real && ParseInterval(b.interval).Some?
  }

  /** The 401/403 gate shared by the capper routes. */
  function CapperGate(session: Option<Principal>): (r: Option<ApiError>)
    ensures r.None? <==> session.Some? && session.value.role == Capper
    ensures session.None? ==> r == Some(Unauthorized)
    ensures session.Some? && session.value.role != Capper ==> r == Some(Forbidden)
  {
    if session.None? then Some(Unauthorized)
    else if session.value.role != Capper then Some(Forbidden)
    else None
  }

  /**
    POST /api/capper/plans. `newPlanId` is the id the store generates.
   */
  function PostPlan(session: Option<Principal>, body: Body<PlanBody>, db: Db, newPlanId: string)
    : (r: (Result<Plan>, Db))
    requires CappersWellFormed(db.cappers)
    ensures CapperGate(session).Some? ==> r == (Err(CapperGate(session).value), db)
    ensures CapperGate(session).None? && (body.Malformed? || !ValidPlan(body.fields)) ==> r == (Err(InvalidBody), db)
    ensures CapperGate(session).None? && body.Typed? && ValidPlan(body.fields) && !HasProfile(db.cappers, session.value.id) ==>
              r == (Err(NotFound), db)
    ensures r.0.Err? ==> r.1 == db
    ensures r.0.Ok? <==>
      CapperGate(session).None? && body.Typed? && ValidPlan(body.fields) && HasProfile(db.cappers, session.value.id)
    ensures r.0.Ok? ==>
      var p := r.0.value;
      && session.Some? && session.value.role == Capper && body.Typed? && ValidPlan(body.fields)
      && p.capperId in db.cappers && db.cappers[p.capperId].userId == session.value.id
      && p.id == newPlanId
      && p.name == body.fields.name
      && p.price as real == body.fields.price && p.price >= MinPlanPrice
      && Some(p.interval) == ParseInterval(body.fields.interval)
      && r.1 == db.(plans := db.plans[newPlanId := p])
  {
    var gate := CapperGate(session);
    if gate.Some? then (Err(gate.value), db)
    else if body.Malformed? || !ValidPlan(body.fields) then (Err(InvalidBody), db)
    else
      match ProfileOfUser(db.cappers, session.value.id)
      case None => (Err(NotFound), db)
      case Some(profile) =>
        var f := body.fields;
        var plan := Plan(newPlanId, profile.id, f.name, f.price.Floor, ParseInterval(f.interval).value);
        (Ok(plan), db.(plans := db.plans[newPlanId := plan]))
  }

  /** The pick form. */
  datatype PickBody = PickBody(event: string, line: string, sport: string, confidence: string, analysis: string)

  /** The pick schema's minimum lengths. */
  predicate ValidPick(b: PickBody) {
    |b.event| >= 2 && |b.line| >= 2 && |b.sport| >= 2 && |b.confidence| >= 1 && |b.analysis| >= 10
  }

  /**
    POST /api/capper/picks. `newPickId` and `now` are the id and creation
    time the store fills in.
   */
  function PostPick(session: Option<Principal>, body: Body<PickBody>, db: Db, newPickId: string, now: int)
    : (r: (Result<Pick>, Db))
    requires CappersWellFormed(db.cappers)
    ensures CapperGate(session).Some? ==> r == (Err(CapperGate(session).value), db)
    ensures CapperGate(session).None? && (body.Malformed? || !ValidPick(body.fields)) ==> r == (Err(InvalidBody), db)
    ensures CapperGate(session).None? && body.Typed? && ValidPick(body.fields) && !HasProfile(db.cappers, session.value.id) ==>
              r == (Err(NotFound), db)
    ensures r.0.Err? ==> r.1 == db
    ensures r.0.Ok? <==>
      CapperGate(session).None? && body.Typed? && ValidPick(body.fields) && HasProfile(db.cappers, session.value.id)
    ensures r.0.Ok? ==>
      var p := r.0.value;
      var f := body.fields;
      && session.Some? && session.value.role == Capper && body.Typed? && ValidPick(f)
      && p.capperId in db.cappers && db.cappers[p.capperId].userId == session.value.id
      && p == Pick(newPickId, p.capperId, f.event, f.line, f.sport, f.confidence, f.analysis, now)
      && r.1 == db.(picks := db.picks + [p])
  {
    var gate := CapperGate(session);
    if gate.Some? then (Err(gate.value), db)
    else if body.Malformed? || !ValidPick(body.fields) then (Err(InvalidBody), db)
    else
      match ProfileOfUser(db.cappers, session.value.id)
      case None => (Err(NotFound), db)
      case Some(profile) =>
        var f := body.fields;
        var pick := Pick(newPickId, profile.id, f.event, f.line, f.sport, f.confidence, f.analysis, now);
        (Ok(pick), db.(picks := db.picks + [pick]))
  }

  /** A published pick is listed in its capper's feed: one more entry there,
      and none anywhere else. */
  lemma PublishedPickIsListed(session: Option<Principal>, body: Body<PickBody>, db: Db, newPickId: string, now: int,
                              capperId: string)
    requires CappersWellFormed(db.cappers)
    requires PostPick(session, body, db, newPickId, now).0.Ok?
    ensures var (r, db') := PostPick(session, body, db, newPickId, now);
            multiset(Access.PicksOf(db'.picks, capperId)) ==
              multiset(Access.PicksOf(db.picks, capperId)) + (if r.value.capperId == capperId then multiset{r.value} else multiset{})
  {
    var (r, db') := PostPick(session, body, db, newPickId, now);
    Access.PicksOfAppend(db.picks, r.value, capperId);
  }

  /** Only a capper with a profile can grow the plan table, and only by one plan. */
  lemma PostPlanGrowsByOne(session: Option<Principal>, body: Body<PlanBody>, db: Db, newPlanId: string)
    requires CappersWellFormed(db.cappers) && newPlanId !in db.plans
    ensures var (r, db') := PostPlan(session, body, db, newPlanId);
            |db'.plans| == |db.plans| + (if r.Ok? then 1 else 0)
  {
  }
}

=== FILE: fees.dfy ===
/**
  The platform fee: default rates, the rate picked for a capper at checkout,
  and the integer application fee taken from a price.
 */
module Fees {
  import opened Common
  import opened Store

  /** `PLATFORM_FEE_DEFAULTS`, in basis points. */
  const DefaultVerifiedBps: int := 1500
  const DefaultUnverifiedBps: int := 2500

  /** A whole fee rate: 0 to 100 percent. */
  predicate ValidBps(bps: int) {
    0 <= bps <= 10000
  }

  /**
    The rate the checkout route applies to a capper: the configured rate
    for the capper's verification status, or the default when the settings
    row or that field is null. A configured 0 is a rate, not a fallback.
   */
  function ResolveFeeBps(capperVerified: bool, settings: Option<PlatformSettings>): (bps: int)
    ensures settings.None? ==> bps == (if capperVerified then 1500 else 2500)
    ensures settings.Some? && capperVerified && settings.value.verifiedFeeBps.Some? ==>
              bps == settings.value.verifiedFeeBps.value
    ensures settings.Some? && !capperVerified && settings.value.unverifiedFeeBps.Some? ==>
              bps == settings.value.unverifiedFeeBps.value
    ensures settings.Some? && capperVerified && settings.value.verifiedFeeBps.None? ==> bps == 1500
    ensures settings.Some? && !capperVerified && settings.value.unverifiedFeeBps.None? ==> bps == 2500
  {
    if capperVerified then
      (if settings.Some? then settings.value.verifiedFeeBps else None).GetOr(DefaultVerifiedBps)
    else
      (if settings.Some? then settings.value.unverifiedFeeBps else None).GetOr(DefaultUnverifiedBps)
  }

  /** Both stored rates, when present, are whole rates. */
  predicate SettingsInRange(settings: Option<PlatformSettings>) {
    settings.Some? ==>
      && (settings.value.verifiedFeeBps.Some? ==> ValidBps(settings.value.verifiedFeeBps.value))
      && (settings.value.unverifiedFeeBps.Some? ==> ValidBps(settings.value.unverifiedFeeBps.value))
  }

  lemma ResolvedFeeInRange(capperVerified: bool, settings: Option<PlatformSettings>)
    requires SettingsInRange(settings)
    ensures ValidBps(ResolveFeeBps(capperVerified, settings))
  {
  }

  /**
    `calculateApplicationFee`: `Math.round(amount * feeBps / 10000)`, with the
    division carried out exactly (see README on IEEE doubles).
   */
  function ApplicationFee(amount: int, feeBps: int): (fee: int)
    ensures fee as real - 0.5 <= (amount * feeBps) as real / 10000.0 < fee as real + 0.5
  {
    JsRound((amount * feeBps) as real / 10000.0)
  }

  /** The same fee in integer arithmetic: round half up of amount*bps/10000. */
  lemma ApplicationFeeIntegerForm(amount: int, feeBps: int)
    ensures ApplicationFee(amount, feeBps) == (amount * feeBps + 5000) / 10000
  {
    var n := amount * feeBps;
    var q, r := (n + 5000) / 10000, (n + 5000) % 10000;
    assert n + 5000 == q * 10000 + r && 0 <= r < 10000;
    assert n as real / 10000.0 == q as real + (r - 5000) as real / 10000.0;
    JsRoundUnique(n as real / 10000.0, q);
  }

  /** The fee never exceeds the amount when the rate is at most 100 percent. */
  lemma ApplicationFeeBounds(amount: int, feeBps: int)
    requires amount >= 0 && ValidBps(feeBps)
    ensures 0 <= ApplicationFee(amount, feeBps) <= amount
  {
    ApplicationFeeIntegerForm(amount, feeBps);
    assert amount * feeBps <= amount * 10000 by {
      assert amount * (10000 - feeBps) >= 0;
    }
  }

  lemma ApplicationFeeZeroRate(amount: int)
    ensures ApplicationFee(amount, 0) == 0
  {
    ApplicationFeeIntegerForm(amount, 0);
  }

  lemma ApplicationFeeFullRate(amount: int)
    ensures ApplicationFee(amount, 10000) == amount
  {
    ApplicationFeeIntegerForm(amount, 10000);
  }

  lemma ApplicationFeeMonotoneInAmount(a1: int, a2: int, feeBps: int)
    requires a1 <= a2 && feeBps >= 0
    ensures ApplicationFee(a1, feeBps) <= ApplicationFee(a2, feeBps)
  {
    ApplicationFeeIntegerForm(a1, feeBps);
    ApplicationFeeIntegerForm(a2, feeBps);
    assert a1 * feeBps <= a2 * feeBps by {
      assert (a2 - a1) * feeBps >= 0;
    }
  }

  lemma ApplicationFeeMonotoneInRate(amount: int, b1: int, b2: int)
    requires amount >= 0 && b1 <= b2
    ensures ApplicationFee(amount, b1) <= ApplicationFee(amount, b2)
  {
    ApplicationFeeIntegerForm(amount, b1);
    ApplicationFeeIntegerForm(amount, b2);
    assert amount * b1 <= amount * b2 by {
      assert amount * (b2 - b1) >= 0;
    }
  }

  /** The split of a price between the platform and the capper. */
  datatype Split = Split(applicationFee: int, capperNet: int)

  /**
    The split the checkout request asks the processor for: the application
    fee for the platform and the remainder for the capper's account.
   */
  function SettlePrice(price: int, feeBps: int): (s: Split)
    requires price >= 0 && ValidBps(feeBps)
    ensures s.applicationFee + s.capperNet == price
    ensures 0 <= s.applicationFee <= price && 0 <= s.capperNet <= price
    ensures s.applicationFee == (price * feeBps + 5000) / 10000
  {
    ApplicationFeeBounds(price, feeBps);
    ApplicationFeeIntegerForm(price, feeBps);
    var fee := ApplicationFee(price, feeBps);
    Split(fee, price - fee)
  }

  lemma DefaultRates()
    ensures ResolveFeeBps(true, None) == 1500
    ensures ResolveFeeBps(false, None) == 2500
  {
  }

  /** A $100.00 plan at the verified default: $15.00 fee, $85.00 to the capper. */
  lemma SettleHundredDollarsVerified()
    ensures SettlePrice(10000, ResolveFeeBps(true, None)) == Split(1500, 8500)
  {
  }
}

=== FILE: mockdata.dfy ===
/**
  The helpers behind the demo dashboards: the ROI leaderboard and the
  revenue split table with its totals.
 */
module MockData {
  import opened Common
  import opened Sorting

  /**
    `computeLeaderboard`: a sorted copy, highest ROI first. The entry type
    is generic; `roi` reads the ROI of an entry. The input is a value and
    cannot be changed by the call.
   */
  function ComputeLeaderboard<T>(cappers: seq<T>, roi: T -> real): (ranked: seq<T>)
    ensures |ranked| == |cappers|
    ensures multiset(ranked) == multiset(cappers)
    ensures SortedDesc(ranked, roi)
    ensures forall r :: WithKey(ranked, roi, r) == WithKey(cappers, roi, r)
  {
    var ranked := SortDesc(cappers, roi);
    forall r ensures WithKey(ranked, roi, r) == WithKey(cappers, roi, r) {
      SortDescStable(cappers, roi, r);
    }
    ranked
  }

  /** The leaderboard's first entry has the top ROI of the input, ties included. */
  lemma LeaderHasTopRoi<T>(cappers: seq<T>, roi: T -> real)
    requires |cappers| > 0
    ensures forall c :: c in cappers ==> roi(c) <= roi(ComputeLeaderboard(cappers, roi)[0])
  {
    var ranked := ComputeLeaderboard(cappers, roi);
    SortedHeadIsMax(ranked, roi);
    assert forall c :: c in cappers ==> c in multiset(ranked);
  }

  datatype Entry = Entry(id: string, roi: real)

  function Roi(e: Entry): real {
    e.roi
  }

  /** The self-test with a tie: ROIs 10, 10, 5, and the tied pair in input order. */
  lemma LeaderboardTieExample()
    ensures ComputeLeaderboard([Entry("a", 10.0), Entry("b", 10.0), Entry("c", 5.0)], Roi) ==
            [Entry("a", 10.0), Entry("b", 10.0), Entry("c", 5.0)]
  {
    var a, b, c := Entry("a", 10.0), Entry("b", 10.0), Entry("c", 5.0);
    assert [a, b, c][1..] == [b, c];
    assert [b, c][1..] == [c];
    assert [c][1..] == [];
    assert SortDesc([c], Roi) == [c];
    assert Insert(b, [c], Roi) == [b, c];
    assert SortDesc([b, c], Roi) == [b, c];
    assert Insert(a, [b, c], Roi) == [a, b, c];
  }

  /** One input row of the revenue table; `gross` is in dollars. */
  datatype RevenueRow = RevenueRow(id: string, name: string, gross: real)

  datatype FinanceRow = FinanceRow(id: string, name: string, gross: real, platformShare: int, capperNet: int)

  datatype Totals = Totals(gross: real, platform: int, capper: int)

  /** A row's split at a platform cut of `pct` percent, each part rounded on its own. */
  function ShareRow(r: RevenueRow, pct: real): (f: FinanceRow)
    ensures f.id == r.id && f.name == r.name && f.gross == r.gross
    ensures f.platformShare as real - 0.5 <= r.gross * (pct / 100.0) < f.platformShare as real + 0.5
    ensures f.capperNet as real - 0.5 <= r.gross * (1.0 - pct / 100.0) < f.capperNet as real + 0.5
  {
    var rate := pct / 100.0;
    FinanceRow(r.id, r.name, r.gross, JsRound(r.gross * rate), JsRound(r.gross * (1.0 - rate)))
  }

  function ShareRows(rows: seq<RevenueRow>, pct: real): (out: seq<FinanceRow>)
    ensures |out| == |rows|
    ensures forall i :: 0 <= i < |rows| ==> out[i] == ShareRow(rows[i], pct)
  {
    if rows == [] then [] else [ShareRow(rows[0], pct)] + ShareRows(rows[1..], pct)
  }

  function SumGross(rows: seq<FinanceRow>): real {
    if rows == [] then 0.0 else SumGross(rows[..|rows| - 1]) + rows[|rows| - 1].gross
  }

  function SumPlatform(rows: seq<FinanceRow>): int {
    if rows == [] then 0 else SumPlatform(rows[..|rows| - 1]) + rows[|rows| - 1].platformShare
  }

  function SumCapper(rows: seq<FinanceRow>): int {
    if rows == [] then 0 else SumCapper(rows[..|rows| - 1]) + rows[|rows| - 1].capperNet
  }

  lemma SumsStep(rows: seq<FinanceRow>, i: nat)
    requires i < |rows|
    ensures SumGross(rows[..i + 1]) == SumGross(rows[..i]) + rows[i].gross
    ensures SumPlatform(rows[..i + 1]) == SumPlatform(rows[..i]) + rows[i].platformShare
    ensures SumCapper(rows[..i + 1]) == SumCapper(rows[..i]) + rows[i].capperNet
  {
    assert rows[..i + 1][..i] == rows[..i];
  }

  /**
    `computeFinance`: the rows with their shares, and the totals the
    reduce accumulates, which equal the column sums of the rows.
   */
  method ComputeFinance(rows: seq<RevenueRow>, platformCutPct: real) returns (out: seq<FinanceRow>, totals: Totals)
    ensures |out| == |rows|
    ensures forall i :: 0 <= i < |rows| ==> out[i] == ShareRow(rows[i], platformCutPct)
    ensures totals.gross == SumGross(out)
    ensures totals.platform == SumPlatform(out)
    ensures totals.capper == SumCapper(out)
  {
    out := ShareRows(rows, platformCutPct);
    var gross, platform, capper := 0.0, 0, 0;
    var i := 0;
    while i < |out|
      invariant 0 <= i <= |out|
      invariant gross == SumGross(out[..i])
      invariant platform == SumPlatform(out[..i])
      invariant capper == SumCapper(out[..i])
    {
      SumsStep(out, i);
      gross, platform, capper := gross + out[i].gross, platform + out[i].platformShare, capper + out[i].capperNet;
      i := i + 1;
    }
    assert out[..i] == out;
    totals := Totals(gross, platform, capper);
  }

  /**
    The two shares are rounded separately, so on a whole-dollar gross they
    add up to the gross or to one more, never less.
   */
  lemma SharesNearGross(r: RevenueRow, pct: real)
    requires r.gross.Floor as real == r.gross
    ensures var f := ShareRow(r, pct);
            r.gross <= (f.platformShare + f.capperNet) as real <= r.gross + 1.0
  {
    var f := ShareRow(r, pct);
    var a := r.gross * (pct / 100.0);
    assert r.gross * (1.0 - pct / 100.0) == r.gross - a;
    var g := r.gross.Floor;
    assert (f.platformShare + f.capperNet) as real - 1.0 <= r.gross < (f.platformShare + f.capperNet) as real + 1.0;
    assert g - 1 < f.platformShare + f.capperNet <= g + 1;
  }

  /** The extra dollar is real: $1 at a 50 percent cut is split $1 and $1. */
  lemma SharesCanExceedGross()
    ensures var f := ShareRow(RevenueRow("cap-x", "X", 1.0), 50.0);
            f.platformShare == 1 && f.capperNet == 1
  {
    JsRoundUnique(0.5, 1);
  }
}

=== FILE: register.dfy ===
/**
  Self-registration: validates the sign-up form, refuses a used e-mail, and
  creates the user, together with an empty capper profile for a capper.
 */
module Register {
  import opened Common
  import opened Store

  /** The sign-up form; `role` is the raw string the client sent. */
  datatype RegisterBody = RegisterBody(name: string, email: string, password: string, role: string)

  /** `z.enum(["BETTOR", "CAPPER"])`: the only roles one may sign up with. */
  function ParseRole(s: string): (r: Option<Role>)
    ensures r.Some? ==> r.value != Admin
    ensures r == Some(Bettor) <==> s == "BETTOR"
    ensures r == Some(Capper) <==> s == "CAPPER"
  {
    if s == "BETTOR" then Some(Bettor)
    else if s == "CAPPER" then Some(Capper)
    else None
  }

  /** The schema: name of 2+ characters, a well-formed e-mail (`isEmail`
      stands for the schema library's check), password of 6+, a known role. */
  predicate ValidForm(b: RegisterBody, isEmail: string -> bool) {
    |b.name| >= 2 && isEmail(b.email) && |b.password| >= 6 && ParseRole(b.role).Some?
  }

  /** Every capper profile belongs to a stored user. */
  ghost predicate ProfilesOwned(db: Db) {
    forall k :: k in db.cappers ==> db.cappers[k].userId in db.users
  }

  /** The store invariants registration has to keep. */
  ghost predicate Consistent(db: Db) {
    UsersWellFormed(db.users) && CappersWellFormed(db.cappers) && ProfilesOwned(db)
  }

  /**
    The POST handler. `hashed` is the password hash the handler computes,
    and `newUserId`/`newCapperId` the ids the store generates for the new
    rows (fresh, as generated ids are).
   */
  function Post(body: Body<RegisterBody>, db: Db, isEmail: string -> bool, hashed: string,
                newUserId: string, newCapperId: string): (r: (Result<string>, Db))
    requires newUserId !in db.users && newCapperId !in db.cappers
    ensures body.Malformed? || !ValidForm(body.fields, isEmail) <==> r == (Err(InvalidBody), db)
    ensures body.Typed? && ValidForm(body.fields, isEmail) && EmailRegistered(db.users, body.fields.email) <==>
              r == (Err(EmailTaken), db)
    ensures r.0.Err? ==> r.1 == db
    ensures r.0.Ok? <==> body.Typed? && ValidForm(body.fields, isEmail) && !EmailRegistered(db.users, body.fields.email)
    ensures r.0.Ok? ==>
      var f := body.fields;
      var role := ParseRole(f.role).value;
      && body.Typed? && ValidForm(f, isEmail) && !EmailRegistered(db.users, f.email)
      && r.0.value == newUserId
      && r.1.users == db.users[newUserId := User(newUserId, Some(f.name), f.email, Some(hashed), role, false, None, None)]
      && role != Admin
      && (role == Capper ==> r.1.cappers == db.cappers[newCapperId := CapperProfile(newCapperId, newUserId, "", [], "0-0")])
      && (role != Capper ==> r.1.cappers == db.cappers)
      && r.1 == db.(users := r.1.users, cappers := r.1.cappers)
  {
    if body.Malformed? || !ValidForm(body.fields, isEmail) then (Err(InvalidBody), db)
    else
      var f := body.fields;
      if EmailRegistered(db.users, f.email) then (Err(EmailTaken), db)
      else
        var role := ParseRole(f.role).value;
        var user := User(newUserId, Some(f.name), f.email, Some(hashed), role, false, None, None);
        var cappers' := if role == Capper then db.cappers[newCapperId := CapperProfile(newCapperId, newUserId, "", [], "0-0")]
                        else db.cappers;
        (Ok(newUserId), db.(users := db.users[newUserId := user], cappers := cappers'))
  }

  /** Registration keeps e-mails unique and every profile owned by one user. */
  lemma PostPreservesConsistency(body: Body<RegisterBody>, db: Db, isEmail: string -> bool, hashed: string,
                                 newUserId: string, newCapperId: string)
    requires newUserId !in db.users && newCapperId !in db.cappers
    requires Consistent(db)
    ensures Consistent(Post(body, db, isEmail, hashed, newUserId, newCapperId).1)
  {
    var (r, db') := Post(body, db, isEmail, hashed, newUserId, newCapperId);
    if r.Ok? {
      assert !HasProfile(db.cappers, newUserId);
    }
  }

  /** A new account has a capper profile exactly when it signed up as a capper. */
  lemma ProfileIffCapper(body: Body<RegisterBody>, db: Db, isEmail: string -> bool, hashed: string,
                         newUserId: string, newCapperId: string)
    requires newUserId !in db.users && newCapperId !in db.cappers
    requires ProfilesOwned(db)
    requires Post(body, db, isEmail, hashed, newUserId, newCapperId).0.Ok?
    ensures var db' := Post(body, db, isEmail, hashed, newUserId, newCapperId).1;
            HasProfile(db'.cappers, newUserId) <==> db'.users[newUserId].role == Capper
  {
    var db' := Post(body, db, isEmail, hashed, newUserId, newCapperId).1;
    if db'.users[newUserId].role == Capper {
      assert db'.cappers[newCapperId].userId == newUserId;
    } else {
      assert !HasProfile(db.cappers, newUserId);
    }
  }

  /** Nobody can sign up as an admin. */
  lemma NoSelfServiceAdmin(body: Body<RegisterBody>, db: Db, isEmail: string -> bool, hashed: string,
                           newUserId: string, newCapperId: string)
    requires newUserId !in db.users && newCapperId !in db.cappers
    requires body.Typed? && body.fields.role == "ADMIN"
    ensures Post(body, db, isEmail, hashed, newUserId, newCapperId) == (Err(InvalidBody), db)
  {
  }
}

=== FILE: settings.dfy ===
/**
  The admin route that writes the platform fee rates: percentages in the
  body, basis points in the singleton settings row.
 */
module Settings {
  import opened Common
  import opened Store
  import opened Fees

  /** The body: both fees as percentages (JSON numbers, here exact reals). */
  datatype FeeBody = FeeBody(verifiedFee: real, unverifiedFee: real)

  /** The schema's `min(0).max(100)`. */
  predicate PercentInRange(p: real) {
    0.0 <= p <= 100.0
  }

  /** `Math.round(percent * 100)`: the nearest basis point, halves up. */
  function PercentToBps(p: real): (bps: int)
    ensures bps as real - 0.5 <= p * 100.0 < bps as real + 0.5
    ensures PercentInRange(p) ==> ValidBps(bps)
  {
    JsRound(p * 100.0)
  }

  /** A whole percentage converts exactly. */
  lemma WholePercentToBps(k: int)
    ensures PercentToBps(k as real) == 100 * k
  {
    JsRoundOfInt(100 * k);
  }

  /**
    The POST handler. A caller that is not an admin gets 401; a body that
    is malformed or has a fee outside [0, 100] gets 400; in both cases the
    settings are untouched. Otherwise row 1 is created or updated with both
    rates, and the written row is returned.
   */
  function Post(session: Option<Principal>, body: Body<FeeBody>, settings: Option<PlatformSettings>)
    : (r: (Result<PlatformSettings>, Option<PlatformSettings>))
    ensures session.None? || session.value.role != Admin ==> r == (Err(Unauthorized), settings)
    ensures session.Some? && session.value.role == Admin && body.Malformed? ==> r == (Err(InvalidBody), settings)
    ensures session.Some? && session.value.role == Admin && body.Typed? &&
            !(PercentInRange(body.fields.verifiedFee) && PercentInRange(body.fields.unverifiedFee)) ==>
              r == (Err(InvalidBody), settings)
    ensures r.0.Ok? ==>
      && session.Some? && session.value.role == Admin && body.Typed?
      && r.1 == Some(r.0.value)
      && r.0.value.verifiedFeeBps == Some(PercentToBps(body.fields.verifiedFee))
      && r.0.value.unverifiedFeeBps == Some(PercentToBps(body.fields.unverifiedFee))
      && SettingsInRange(r.1)
    ensures r.0.Err? ==> r.1 == settings
    ensures r.0.Ok? <==>
      && session.Some? && session.value.role == Admin && body.Typed?
      && PercentInRange(body.fields.verifiedFee) && PercentInRange(body.fields.unverifiedFee)
  {
    if session.None? || session.value.role != Admin then (Err(Unauthorized), settings)
    else if body.Malformed? then (Err(InvalidBody), settings)
    else if !(PercentInRange(body.fields.verifiedFee) && PercentInRange(body.fields.unverifiedFee)) then
      (Err(InvalidBody), settings)
    else
      var row := PlatformSettings(Some(PercentToBps(body.fields.verifiedFee)),
                                  Some(PercentToBps(body.fields.unverifiedFee)));
      (Ok(row), Some(row))
  }

  /** Repeating a settings write gives the same row; the old row is irrelevant. */
  lemma PostIdempotent(session: Option<Principal>, body: Body<FeeBody>, settings: Option<PlatformSettings>)
    ensures Post(session, body, Post(session, body, settings).1) == Post(session, body, settings)
  {
  }

  /** Rejected writes never leave an out-of-range rate: the invariant holds throughout. */
  lemma PostPreservesRange(session: Option<Principal>, body: Body<FeeBody>, settings: Option<PlatformSettings>)
    requires SettingsInRange(settings)
    ensures SettingsInRange(Post(session, body, settings).1)
  {
  }

  /**
    What checkout charges after a successful write: exactly the written
    rates, including a written 0, never the defaults.
   */
  lemma WrittenRatesReachCheckout(session: Option<Principal>, body: Body<FeeBody>, settings: Option<PlatformSettings>)
    requires Post(session, body, settings).0.Ok?
    ensures var written := Post(session, body, settings).1;
            && ResolveFeeBps(true, written) == PercentToBps(body.fields.verifiedFee)
            && ResolveFeeBps(false, written) == PercentToBps(body.fields.unverifiedFee)
  {
  }

  /** A 0 percent fee is stored as 0 and honoured by checkout. */
  lemma ZeroFeeHonoured(admin: Principal, settings: Option<PlatformSettings>)
    requires admin.role == Admin
    ensures var written := Post(Some(admin), Typed(FeeBody(0.0, 0.0)), settings).1;
            ResolveFeeBps(true, written) == 0 && ResolveFeeBps(false, written) == 0
  {
    WholePercentToBps(0);
  }
}

=== FILE: sorting.dfy ===
/**
  A stable sort by a numeric key, largest key first. Both orderings in the
  model are of this kind: picks newest first, the leaderboard by ROI.
  ECMAScript's `Array.prototype.sort` is stable, so stability is part of
  the contract.
 */
module Sorting {

  ghost predicate SortedDesc<T>(s: seq<T>, key: T -> real) {
    forall i, j :: 0 <= i < j < |s| ==> key(s[i]) >= key(s[j])
  }

  /** The elements of `s` whose key is `k`, in their order in `s`. */
  function WithKey<T>(s: seq<T>, key: T -> real, k: real): seq<T> {
    if s == [] then []
    else (if key(s[0]) == k then [s[0]] else []) + WithKey(s[1..], key, k)
  }

  /** Inserts `x` before the first element whose key is not larger. */
  function Insert<T>(x: T, r: seq<T>, key: T -> real): (r': seq<T>)
    ensures |r'| == |r| + 1
    ensures multiset(r') == multiset(r) + multiset{x}
  {
    if r == [] || key(r[0]) <= key(x) then [x] + r
    else
      assert r == [r[0]] + r[1..];
      [r[0]] + Insert(x, r[1..], key)
  }

  lemma {:induction false} InsertSorted<T>(x: T, r: seq<T>, key: T -> real)
    requires SortedDesc(r, key)
    ensures SortedDesc(Insert(x, r, key), key)
  {
    if r != [] && key(r[0]) > key(x) {
      var tail := r[1..];
      assert SortedDesc(tail, key);
      InsertSorted(x, tail, key);
      var rest := Insert(x, tail, key);
      forall j | 0 <= j < |rest|
        ensures key(rest[j]) <= key(r[0])
      {
        assert rest[j] in multiset(rest);
        if rest[j] != x {
          assert rest[j] in multiset(tail);
          var m :| 0 <= m < |tail| && tail[m] == rest[j];
          assert r[m + 1] == rest[j];
        }
      }
      assert Insert(x, r, key) == [r[0]] + rest;
    }
  }

  function SortDesc<T>(s: seq<T>, key: T -> real): (r: seq<T>)
    ensures |r| == |s|
    ensures multiset(r) == multiset(s)
    ensures SortedDesc(r, key)
  {
    if s == [] then []
    else
      assert s == [s[0]] + s[1..];
      var rest := SortDesc(s[1..], key);
      InsertSorted(s[0], rest, key);
      Insert(s[0], rest, key)
  }

  lemma {:induction false} InsertWithKey<T>(x: T, r: seq<T>, key: T -> real, k: real)
    ensures WithKey(Insert(x, r, key), key, k) ==
            (if key(x) == k then [x] else []) + WithKey(r, key, k)
  {
    if r == [] || key(r[0]) <= key(x) {
      var out := [x] + r;
      assert out[0] == x && out[1..] == r;
      assert WithKey(out, key, k) == (if key(x) == k then [x] else []) + WithKey(r, key, k);
    } else {
      var rest := Insert(x, r[1..], key);
      InsertWithKey(x, r[1..], key, k);
      var out := [r[0]] + rest;
      assert out[0] == r[0] && out[1..] == rest;
      var head := if key(r[0]) == k then [r[0]] else [];
      var xs := if key(x) == k then [x] else [];
      assert WithKey(out, key, k) == head + WithKey(rest, key, k);
      assert WithKey(r, key, k) == head + WithKey(r[1..], key, k);
      assert head == [] || xs == [];
      assert head + (xs + WithKey(r[1..], key, k)) == xs + (head + WithKey(r[1..], key, k));
    }
  }

  /** Stability: elements with equal keys keep their relative order. */
  lemma {:induction false} SortDescStable<T>(s: seq<T>, key: T -> real, k: real)
    ensures WithKey(SortDesc(s, key), key, k) == WithKey(s, key, k)
  {
    if s != [] {
      SortDescStable(s[1..], key, k);
      InsertWithKey(s[0], SortDesc(s[1..], key), key, k);
    }
  }

  /** The first element of a sorted non-empty sequence has the largest key. */
  lemma SortedHeadIsMax<T>(s: seq<T>, key: T -> real)
    requires SortedDesc(s, key) && |s| > 0
    ensures forall x :: x in s ==> key(x) <= key(s[0])
  {
    forall x | x in s
      ensures key(x) <= key(s[0])
    {
      var i :| 0 <= i < |s| && s[i] == x;
      if i > 0 {
        assert key(s[0]) >= key(s[i]);
      }
    }
  }

  /** `s.map(f)`. */
  function MapAll<T>(s: seq<T>, f: T -> T): (r: seq<T>)
    ensures |r| == |s|
    ensures forall i :: 0 <= i < |s| ==> r[i] == f(s[i])
  {
    if s == [] then [] else [f(s[0])] + MapAll(s[1..], f)
  }

  /** A map that keeps every key commutes with sorting by that key. */
  lemma {:induction false} InsertMapAll<T>(x: T, r: seq<T>, key: T -> real, f: T -> T)
    requires forall y :: key(f(y)) == key(y)
    ensures Insert(f(x), MapAll(r, f), key) == MapAll(Insert(x, r, key), f)
  {
    if r != [] && key(r[0]) > key(x) {
      InsertMapAll(x, r[1..], key, f);
      assert MapAll(r, f)[1..] == MapAll(r[1..], f);
    }
  }

  lemma {:induction false} SortDescMapAll<T>(s: seq<T>, key: T -> real, f: T -> T)
    requires forall y :: key(f(y)) == key(y)
    ensures SortDesc(MapAll(s, f), key) == MapAll(SortDesc(s, key), f)
  {
    if s != [] {
      SortDescMapAll(s[1..], key, f);
      assert MapAll(s, f)[1..] == MapAll(s[1..], f);
      InsertMapAll(s[0], SortDesc(s[1..], key), key, f);
    }
  }
}

=== FILE: store.dfy ===
/**
  The persistent store as an immutable value: one table per entity of the
  marketplace. Tables with a primary key are maps from that key; picks are
  kept in insertion order, since the picks route reads them as a list.
 */
module Store {
  import opened Common

  datatype Interval = Day | Week | Month

  datatype User = User(
    id: string,
    name: Option<string>,
    email: string,
    hashedPassword: Option<string>,
    role: Role,
    isVerified: bool,
    stripeCustomerId: Option<string>,   // processor customer, created lazily at checkout
    stripeAccountId: Option<string>     // payout destination, needed before a capper can be paid
  )

  /** A capper profile; one per user of role CAPPER. */
  datatype CapperProfile = CapperProfile(id: string, userId: string, bio: string, sports: seq<string>, record: string)

  /** A subscription plan; `price` is in cents. */
  datatype Plan = Plan(id: string, capperId: string, name: string, price: int, interval: Interval)

  /** The local mirror of a processor subscription, keyed by `stripeSubId`. */
  datatype Subscription = Subscription(stripeSubId: string, userId: string, capperId: string, planId: Option<string>, active: bool)

  /** The singleton settings row (id 1); either fee field may be null. */
  datatype PlatformSettings = PlatformSettings(verifiedFeeBps: Option<int>, unverifiedFeeBps: Option<int>)

  datatype RequestStatus = Pending | Approved

  /** A capper's request to be verified; at most one per user. */
  datatype VerificationRequest = VerificationRequest(userId: string, message: Option<string>, status: RequestStatus)

  /** `createdAt` is the creation time in milliseconds. */
  datatype Pick = Pick(id: string, capperId: string, event: string, line: string, sport: string,
                       confidence: string, analysis: string, createdAt: int)

  datatype Db = Db(
    users: map<string, User>,
    cappers: map<string, CapperProfile>,
    plans: map<string, Plan>,
    subscriptions: map<string, Subscription>,
    settings: Option<PlatformSettings>,
    requests: map<string, VerificationRequest>,
    picks: seq<Pick>
  )

  /** Every user is stored under its own id, and `User.email` is unique. */
  ghost predicate UsersWellFormed(users: map<string, User>) {
    && (forall k :: k in users ==> users[k].id == k)
    && (forall a, b :: a in users && b in users && users[a].email == users[b].email ==> a == b)
  }

  /** Every profile is stored under its own id, and `Capper.userId` is unique. */
  ghost predicate CappersWellFormed(cappers: map<string, CapperProfile>) {
    && (forall k :: k in cappers ==> cappers[k].id == k)
    && (forall a, b :: a in cappers && b in cappers && cappers[a].userId == cappers[b].userId ==> a == b)
  }

  predicate EmailRegistered(users: map<string, User>, email: string) {
    exists id | id in users :: users[id].email == email
  }

  /** `user.findUnique({ where: { email } })`. */
  function UserByEmail(users: map<string, User>, email: string): (r: Option<User>)
    requires UsersWellFormed(users)
    ensures r.None? <==> !EmailRegistered(users, email)
    ensures r.Some? ==> r.value.id in users && users[r.value.id] == r.value && r.value.email == email
  {
    if EmailRegistered(users, email) then
      var id :| id in users && users[id].email == email;
      Some(users[id])
    else None
  }

  predicate HasProfile(cappers: map<string, CapperProfile>, userId: string) {
    exists id | id in cappers :: cappers[id].userId == userId
  }

  /** `capper.findUnique({ where: { userId } })`. */
  function ProfileOfUser(cappers: map<string, CapperProfile>, userId: string): (r: Option<CapperProfile>)
    requires CappersWellFormed(cappers)
    ensures r.None? <==> !HasProfile(cappers, userId)
    ensures r.Some? ==> r.value.id in cappers && cappers[r.value.id] == r.value && r.value.userId == userId
  {
    if HasProfile(cappers, userId) then
      var id :| id in cappers && cappers[id].userId == userId;
      Some(cappers[id])
    else None
  }
}

=== FILE: verification.dfy ===
/**
  Capper verification: a capper files (or refiles) a request, an admin
  approves the user, which marks the user verified and approves the
  request. Verification lowers the fee rate charged at checkout.
 */
module Verification {
  import opened Common
  import opened Store
  import opened Fees
  import Checkout

  const MaxMessageLength: int := 500

  /**
    POST /api/capper/verify-request. The body's optional message is at most
    500 characters. The caller's request is created, or reset to PENDING
    with the new message (null when none was sent).
   */
  function Request(session: Option<Principal>, body: Body<Option<string>>, db: Db)
    : (r: (Result<VerificationRequest>, Db))
    ensures session.None? ==> r == (Err(Unauthorized), db)
    ensures session.Some? && session.value.role != Capper ==> r == (Err(Forbidden), db)
    ensures session.Some? && session.value.role == Capper && body.Malformed? ==> r == (Err(InvalidBody), db)
    ensures session.Some? && session.value.role == Capper && body.Typed? &&
            body.fields.Some? && |body.fields.value| > MaxMessageLength ==>
              r == (Err(InvalidBody), db)
    ensures r.0.Err? ==> r.1 == db
    ensures r.0.Ok? <==>
      && session.Some? && session.value.role == Capper && body.Typed?
      && (body.fields.Some? ==> |body.fields.value| <= MaxMessageLength)
    ensures r.0.Ok? ==>
      var uid := session.value.id;
      && session.Some? && session.value.role == Capper && body.Typed?
      && r.0.value == VerificationRequest(uid, body.fields, Pending)
      && r.1 == db.(requests := r.1.requests)
      && r.1.requests.Keys == db.requests.Keys + {uid}
      && r.1.requests[uid] == r.0.value
      && (forall u :: u in db.requests && u != uid ==> r.1.requests[u] == db.requests[u])
  {
    if session.None? then (Err(Unauthorized), db)
    else if session.value.role != Capper then (Err(Forbidden), db)
    else if body.Malformed? then (Err(InvalidBody), db)
    else if body.fields.Some? && |body.fields.value| > MaxMessageLength then (Err(InvalidBody), db)
    else
      var uid := session.value.id;
      var record := VerificationRequest(uid, body.fields, Pending);
      (Ok(record), db.(requests := db.requests[uid := record]))
  }

  /**
    POST /api/admin/verify-approve. Only an admin may call it (401
    otherwise). The target user becomes verified (an unknown user makes
    the store update fail: 500, nothing written), then the user's request,
    if any, becomes APPROVED.
   */
  function Approve(session: Option<Principal>, body: Body<string>, db: Db): (r: (Result<()>, Db))
    ensures session.None? || session.value.role != Admin ==> r == (Err(Unauthorized), db)
    ensures session.Some? && session.value.role == Admin && body.Malformed? ==> r == (Err(InvalidBody), db)
    ensures session.Some? && session.value.role == Admin && body.Typed? && body.fields !in db.users ==>
              r == (Err(UserNotFound), db)
    ensures r.0.Err? ==> r.1 == db
    ensures r.0.Ok? <==> session.Some? && session.value.role == Admin && body.Typed? && body.fields in db.users
    ensures r.0.Ok? ==>
      var uid := body.fields;
      && session.Some? && session.value.role == Admin && body.Typed? && uid in db.users
      && r.1 == db.(users := r.1.users, requests := r.1.requests)
      && r.1.users == db.users[uid := db.users[uid].(isVerified := true)]
      && r.1.requests.Keys == db.requests.Keys
      && (uid in db.requests ==> r.1.requests[uid] == db.requests[uid].(status := Approved))
      && (forall u :: u in db.requests && u != uid ==> r.1.requests[u] == db.requests[u])
  {
    if session.None? || session.value.role != Admin then (Err(Unauthorized), db)
    else if body.Malformed? then (Err(InvalidBody), db)
    else if body.fields !in db.users then (Err(UserNotFound), db)
    else
      var uid := body.fields;
      var users' := db.users[uid := db.users[uid].(isVerified := true)];
      var requests' := if uid in db.requests then db.requests[uid := db.requests[uid].(status := Approved)]
                       else db.requests;
      (Ok(()), db.(users := users', requests := requests'))
  }

  /** Approving twice leaves the store as approving once. */
  lemma ApproveIdempotent(session: Option<Principal>, body: Body<string>, db: Db)
    ensures var (r1, db1) := Approve(session, body, db);
            Approve(session, body, db1) == (r1, db1)
  {
    var (r1, db1) := Approve(session, body, db);
    if r1.Ok? {
      var uid := body.fields;
      assert db1.users[uid := db1.users[uid].(isVerified := true)] == db1.users;
      if uid in db1.requests {
        assert db1.requests[uid := db1.requests[uid].(status := Approved)] == db1.requests;
      }
    }
  }

  /** Refiling a request never revokes the verification already granted. */
  lemma RequestKeepsVerification(session: Option<Principal>, body: Body<Option<string>>, db: Db)
    ensures Request(session, body, db).1.users == db.users
  {
  }

  /** The whole workflow: a filed request, once approved, is APPROVED and the user verified. */
  lemma RequestThenApprove(capper: Principal, admin: Principal, message: Option<string>, db: Db)
    requires capper.role == Capper && admin.role == Admin && capper.id in db.users
    requires message.Some? ==> |message.value| <= MaxMessageLength
    ensures var db1 := Request(Some(capper), Typed(message), db).1;
            var db2 := Approve(Some(admin), Typed(capper.id), db1).1;
            && db2.requests[capper.id] == VerificationRequest(capper.id, message, Approved)
            && db2.users[capper.id].isVerified
  {
  }

  /**
    Approval feeds the fee policy: after a user is approved, every plan of
    that user's capper profile is charged the verified rate.
   */
  lemma ApprovalAppliesVerifiedRate(admin: Principal, uid: string, db: Db, plan: Plan)
    requires admin.role == Admin && uid in db.users
    requires plan.capperId in db.cappers && db.cappers[plan.capperId].userId == uid
    ensures var db' := Approve(Some(admin), Typed(uid), db).1;
            var owner := Checkout.PlanOwner(db', plan);
            owner.Some? && ResolveFeeBps(owner.value.isVerified, db'.settings) == ResolveFeeBps(true, db.settings)
  {
  }
}

=== FILE: webhook.dfy ===
/**
  The payment-processor webhook, after its signature has been checked: a
  reducer from processor events onto the subscription table, which is keyed
  by the processor's subscription id.
 */
module Webhook {
  import opened Common
  import opened Store
  import Checkout

  function Lookup(m: Checkout.Metadata, key: string): (v: Option<string>)
    ensures v.Some? <==> key in m
    ensures v.Some? ==> v.value == m[key]
  {
    if key in m then Some(m[key]) else None
  }

  /**
    The events the route receives. `checkout.session.completed` carries the
    subscription the session created (if any); the two subscription events
    carry the processor subscription itself. Every other event type is
    `OtherEvent`.
   */
  datatype Event =
    | CheckoutCompleted(subscription: Option<string>, metadata: Checkout.Metadata)
    | SubscriptionCreated(id: string, status: string, metadata: Checkout.Metadata)
    | SubscriptionUpdated(id: string, status: string, metadata: Checkout.Metadata)
    | OtherEvent(eventType: string)
  {
    /** The processor's subscription id the event names. */
    function SubId(): Option<string> {
      match this
      case CheckoutCompleted(sub, _) => sub
      case SubscriptionCreated(id, _, _) => Some(id)
      case SubscriptionUpdated(id, _, _) => Some(id)
      case OtherEvent(_) => None
    }

    function Meta(): Checkout.Metadata {
      if OtherEvent? then map[] else metadata
    }

    /**
      Whether the event is acted on: one of the three handled types, with
      a subscription id, `userId` and `capperId` all truthy.
     */
    predicate Linked() {
      && !OtherEvent?
      && Truthy(SubId())
      && Truthy(Lookup(Meta(), "userId"))
      && Truthy(Lookup(Meta(), "capperId"))
    }

    /** The `active` flag the event asks for: a completed checkout always
        activates; a subscription is active when active or trialing. */
    predicate Active() {
      match this
      case CheckoutCompleted(_, _) => true
      case SubscriptionCreated(_, status, _) => status == "active" || status == "trialing"
      case SubscriptionUpdated(_, status, _) => status == "active" || status == "trialing"
      case OtherEvent(_) => false
    }
  }

  /** The acknowledgement the route always answers with. */
  datatype Ack = Received

  /** Every row sits under its own processor id and belongs to someone. */
  ghost predicate WellKeyed(subs: map<string, Subscription>) {
    forall k :: k in subs ==> subs[k].stripeSubId == k && subs[k].userId != "" && subs[k].capperId != ""
  }

  /**
    `subscription.upsert` keyed by `stripeSubId`: a new row with the given
    linkage, or on an existing row new `active` and `planId` only. A planId
    absent from the metadata is `undefined`, which the store skips on update
    and stores as null on create.
   */
  function Upsert(subs: map<string, Subscription>, key: string, userId: string, capperId: string,
                  planId: Option<string>, active: bool): (subs': map<string, Subscription>)
    ensures subs'.Keys == subs.Keys + {key}
    ensures forall k :: k in subs && k != key ==> subs'[k] == subs[k]
    ensures subs'[key].active == active
    ensures key !in subs ==> subs'[key] == Subscription(key, userId, capperId, planId, active)
    ensures key in subs ==>
      subs'[key] == subs[key].(active := active, planId := if planId.Some? then planId else subs[key].planId)
  {
    if key in subs then
      var row := subs[key];
      subs[key := row.(active := active, planId := if planId.Some? then planId else row.planId)]
    else
      subs[key := Subscription(key, userId, capperId, planId, active)]
  }

  /** The route's `switch`, as a reducer on the subscription table. */
  function Apply(subs: map<string, Subscription>, e: Event): (subs': map<string, Subscription>)
    ensures !e.Linked() ==> subs' == subs
    ensures e.Linked() ==>
      var key := e.SubId().value;
      && subs'.Keys == subs.Keys + {key}
      && subs'[key].active == e.Active()
      && (forall k :: k in subs && k != key ==> subs'[k] == subs[k])
    ensures e.Linked() && e.SubId().value !in subs ==>
      var key := e.SubId().value;
      && subs'[key].userId == e.Meta()["userId"]
      && subs'[key].capperId == e.Meta()["capperId"]
      && subs'[key].planId == Lookup(e.Meta(), "planId")
    ensures e.Linked() && e.SubId().value in subs ==>
      var key := e.SubId().value;
      && subs'[key].stripeSubId == subs[key].stripeSubId
      && subs'[key].userId == subs[key].userId
      && subs'[key].capperId == subs[key].capperId
      && subs'[key].planId == (if "planId" in e.Meta() then Some(e.Meta()["planId"]) else subs[key].planId)
  {
    if !e.Linked() then subs
    else
      Upsert(subs, e.SubId().value, e.Meta()["userId"], e.Meta()["capperId"],
             Lookup(e.Meta(), "planId"), e.Active())
  }

  /** The whole route body after signature verification. */
  function Handle(subs: map<string, Subscription>, e: Event): (r: (Ack, map<string, Subscription>))
    ensures r.0 == Received
    ensures e.OtherEvent? ==> r.1 == subs
    ensures r.1.Keys >= subs.Keys && |r.1| <= |subs| + 1
  {
    (Received, Apply(subs, e))
  }

  lemma ApplyPreservesWellKeyed(subs: map<string, Subscription>, e: Event)
    requires WellKeyed(subs)
    ensures WellKeyed(Apply(subs, e))
  {
  }

  /** At-least-once delivery is harmless: a redelivered event changes nothing. */
  lemma ApplyIdempotent(subs: map<string, Subscription>, e: Event)
    ensures Apply(Apply(subs, e), e) == Apply(subs, e)
  {
    if e.Linked() {
      var key := e.SubId().value;
      var once := Apply(subs, e);
      var twice := Apply(once, e);
      assert twice.Keys == once.Keys;
      assert twice[key] == once[key];
    }
  }

  /** Two events for one subscription: the one applied last decides `active`. */
  lemma LastAppliedWins(subs: map<string, Subscription>, e1: Event, e2: Event)
    requires e1.Linked() && e2.Linked() && e1.SubId() == e2.SubId()
    ensures Apply(Apply(subs, e1), e2)[e2.SubId().value].active == e2.Active()
  {
  }

  /** Events for different subscriptions commute. */
  lemma DistinctSubscriptionsCommute(subs: map<string, Subscription>, e1: Event, e2: Event)
    requires e1.SubId() != e2.SubId()
    ensures Apply(Apply(subs, e1), e2) == Apply(Apply(subs, e2), e1)
  {
    if e1.Linked() && e2.Linked() {
      var a := Apply(Apply(subs, e1), e2);
      var b := Apply(Apply(subs, e2), e1);
      assert a.Keys == b.Keys;
      forall k | k in a
        ensures a[k] == b[k]
      {
      }
    }
  }

  /** A sequence of deliveries, applied in order. */
  function ApplyAll(subs: map<string, Subscription>, es: seq<Event>): map<string, Subscription>
  {
    if es == [] then subs else Apply(ApplyAll(subs, es[..|es| - 1]), es[|es| - 1])
  }

  /** The last event in `es` that acts on processor subscription `key`. */
  function LastFor(es: seq<Event>, key: string): (r: Option<Event>)
    ensures r.Some? ==> r.value in es && r.value.Linked() && r.value.SubId() == Some(key)
    ensures r.None? ==> forall i :: 0 <= i < |es| && es[i].Linked() ==> es[i].SubId() != Some(key)
  {
    if es == [] then None
    else
      var e := es[|es| - 1];
      if e.Linked() && e.SubId() == Some(key) then Some(e) else LastFor(es[..|es| - 1], key)
  }

  /**
    Reconciliation over any delivery order: a subscription's `active` flag
    is the one asked for by the last event about it; a subscription no
    event acts on keeps its row, or still has none.
   */
  lemma {:induction false} ApplyAllLastWins(subs: map<string, Subscription>, es: seq<Event>, key: string)
    ensures var out := ApplyAll(subs, es);
            match LastFor(es, key)
            case Some(e) => key in out && out[key].active == e.Active()
            case None => (key in out <==> key in subs) && (key in subs ==> out[key] == subs[key])
  {
    if es != [] {
      ApplyAllLastWins(subs, es[..|es| - 1], key);
    }
  }

  /** Linkage is immutable: once a row exists, no delivery reassigns it. */
  lemma {:induction false} ApplyAllKeepsLinkage(subs: map<string, Subscription>, es: seq<Event>, key: string)
    requires key in subs
    ensures var out := ApplyAll(subs, es);
            key in out && out[key].userId == subs[key].userId && out[key].capperId == subs[key].capperId
  {
    if es != [] {
      ApplyAllKeepsLinkage(subs, es[..|es| - 1], key);
    }
  }

  /** Any delivery history keeps one well-formed row per processor id. */
  lemma {:induction false} ApplyAllPreservesWellKeyed(subs: map<string, Subscription>, es: seq<Event>)
    requires WellKeyed(subs)
    ensures WellKeyed(ApplyAll(subs, es))
  {
    if es != [] {
      ApplyAllPreservesWellKeyed(subs, es[..|es| - 1]);
      ApplyPreservesWellKeyed(ApplyAll(subs, es[..|es| - 1]), es[|es| - 1]);
    }
  }

  /** Rows only ever appear for processor ids some linked event named. */
  lemma {:induction false} ApplyAllCreatesOnlyLinked(subs: map<string, Subscription>, es: seq<Event>, key: string)
    requires key in ApplyAll(subs, es) && key !in subs
    ensures exists i :: 0 <= i < |es| && es[i].Linked() && es[i].SubId() == Some(key)
  {
    ApplyAllLastWins(subs, es, key);
  }

  /**
    The metadata round trip: the correlation metadata the checkout route
    attaches, delivered back with the completed session, creates a row that
    belongs to that buyer, that capper and that plan, and is active.
   */
  lemma CheckoutMetadataRoundTrip(subs: map<string, Subscription>, subId: string,
                                  userId: string, capperId: string, planId: string)
    requires subId != "" && userId != "" && capperId != ""
    requires subId !in subs
    ensures var out := Apply(subs, CheckoutCompleted(Some(subId), Checkout.CorrelationMetadata(userId, capperId, planId)));
            out[subId] == Subscription(subId, userId, capperId, Some(planId), true)
  {
  }

  // Delivery scenarios on concrete values: redelivery, reordering, reassignment, missing linkage.

  const SubAbc := "sub_abc"

  function CreatedAbc(): Event {
    SubscriptionCreated(SubAbc, "active", map["userId" := "u1", "capperId" := "p1", "planId" := "pl1"])
  }

  /** A redelivered creation leaves exactly one active row. */
  lemma DuplicateCreationExample()
    ensures var out := ApplyAll(map[], [CreatedAbc(), CreatedAbc()]);
            out.Keys == {SubAbc} && out[SubAbc] == Subscription(SubAbc, "u1", "p1", Some("pl1"), true)
  {
    assert [CreatedAbc(), CreatedAbc()][..1] == [CreatedAbc()];
  }

  /** Out of order delivery: the event applied last wins, with no timestamps. */
  lemma OutOfOrderExample()
    ensures var md := map["userId" := "u1", "capperId" := "p1"];
            var up := SubscriptionUpdated("sub_x", "active", md);
            var down := SubscriptionUpdated("sub_x", "canceled", md);
            && !Apply(Apply(map[], up), down)["sub_x"].active
            && Apply(Apply(map[], down), up)["sub_x"].active
  {
  }

  /** A later event claiming another buyer does not move the row. */
  lemma ImmutableLinkageExample()
    ensures var row := Subscription("sub_y", "u1", "p1", None, false);
            var e := SubscriptionUpdated("sub_y", "active", map["userId" := "u2", "capperId" := "p1"]);
            Apply(map["sub_y" := row], e)["sub_y"].userId == "u1"
  {
  }

  /** An event without `userId` never creates a row. */
  lemma MissingLinkageExample(subs: map<string, Subscription>)
    ensures Apply(subs, SubscriptionCreated("sub_z", "active", map["capperId" := "p1"])) == subs
  {
  }
}
